=== FILE: README.md ===
# Sales snapshot engine — a Dafny model

This project models the aggregation engine of a sales dashboard: `analyzeSales`
in `src/lib/analyzer.ts`, with its period-key normaliser `toMonthKey`. The
engine takes a batch of sales records (date text, product, quantity, revenue)
and returns a snapshot:

- the revenue per month, in ascending month order;
- the trending product, chosen by month-over-month quantity growth and
  falling back to the top product by lifetime quantity;
- the peak month by quantity;
- up to three quick alerts;
- the quantity and revenue totals per product.

Layout, one module per file:

- `wrappers.dfy` (`Wrappers`): the `Option` type.
- `text.dfy` (`Text`): decimal digits, `String(n)`, `padStart`, and the
  default string order of `Array.prototype.sort()`.
- `month_key.dfy` (`MonthKeys`): `toMonthKey`. It covers the empty-input
  case, the host date parser, the `(\d{4})[-/ ]?(\d{1,2})` regex search with
  its leftmost, greedy match, and the pass-through.
- `ordered_map.dfy` (`OrderedMap`): plain JavaScript objects used as keyed
  maps. Each is an insertion-ordered association list with `m[k]` (`Get`)
  and `m[k] = v` (`Put`).
- `sorting.dfy` (`Sorting`): the ascending sort of the month keys and the
  stable descending sort by a numeric key.
- `analyzer.dfy` (`Analyzer`): the engine, in two forms.
  - `Analyze` is a function built step by step.
  - `AnalyzeSales` keeps the source's loops (`GroupRecords`, `AddToProduct`,
    `AddToMonth`, `FindTrending`, `ChooseTrending`, `BuildAlerts`). It is
    proved to return `Analyze`.
- `grouping_facts.dfy`, `trending_facts.dfy`, `snapshot_facts.dfy`: what the
  snapshot is in terms of the input records.

Modelling choices:

- `new Date(input)` and its `getFullYear()`/`getMonth()` are a parameter
  `hostParse: string -> Option<HostDate>`. Every property holds for every
  parser.
- Quantities and revenues are integers.
- Growth and revenue change are exact rationals (`real`).
- `Math.round` is `Round(x) = floor(x + 0.5)`: halves are rounded toward
  +infinity, as JavaScript does.
- Object key order is first-insertion order.

Two behaviours of the code decide ties and near-ties. The model follows the
code in both:

- The comment at `src/lib/analyzer.ts:45` chooses the trending product "by
  latest MoM qty growth": the product with the largest growth. Line 55
  compares each product's raw growth with the rounded `growthPct` stored for
  the current choice. So the stored percentage is the largest rounded growth
  (`ScanTrendingKeepsLargestRounded`), but a later product with a smaller raw
  growth can still replace the current choice. Because the comparison is a
  strict `>`, a later product whose raw growth only equals the stored
  percentage does not replace it. `ScanTrendingPicks` pins the choice down
  exactly. See Findings: the corrected
  scan `ScanIntended` compares raw growth with raw growth and keeps the first
  product of largest growth.
- The peak month's tie-break is the stable sort's at lines 68-70. The sort
  runs over the ascending month list, so the earliest month wins a tie
  (`PeakMonthOfRecords`).
- The month key of a peak is the field `month` of `PeakMonth`. The source
  calls it `label` (line 17), which is a reserved word in Dafny.

## Model

| member | source | states |
|---|---|---|
| MonthKeys.ToMonthKey | src/lib/analyzer.ts:3-13 | The key is never empty. Empty input gives "Unknown". When the host parse succeeds, the key is `HostKey` of the parsed date, for any year; with a four-digit year it is `YYYY-MM` with that year and month+1. When the host parse fails and the regex matches, the key is `YYYY-MM` with the matched year text and the numeric value of the matched month. Otherwise the input is returned unchanged. |
| MonthKeys.HostKey | src/lib/analyzer.ts:7 | For every year, the key reads back as `${getFullYear()}`, "-", and two digits denoting `getMonth() + 1` (year 950 gives "950-MM", year -1 gives "-1-MM"). For a four-digit year it is canonical `YYYY-MM`. |
| MonthKeys.RegexKey | src/lib/analyzer.ts:11 | The regex branch's key is canonical `YYYY-MM`. It keeps the captured year text, and its month is the numeric value of the capture, zero-padded. |
| MonthKeys.FirstMatchFrom | src/lib/analyzer.ts:10 | The regex search finds the leftmost position where the pattern matches. No earlier position matches, and when it finds none, no position matches. |
| MonthKeys.FindYearMonth | src/lib/analyzer.ts:10 | A match has four year digits and one or two month digits. |
| MonthKeys.MonthDigitsAt | src/lib/analyzer.ts:10 | `\d{1,2}` is greedy: it takes two digits exactly when two digits follow. |
| MonthKeys.MatchAt | src/lib/analyzer.ts:10 | A match at position i has the four characters at i as its year, at least one more character follows them, and its month is one or two digits. |
| MonthKeys.RegexKeyByMonthValue | src/lib/analyzer.ts:11 | For the same year, two regex matches give the same key exactly when their months have the same numeric value ("5" and "05" collide). |
| MonthKeys.UnpaddedMonthBucket | src/lib/analyzer.ts:10-11 | "YYYY5", "YYYY-5", "YYYY/5" and "YYYY 5" that reach the regex branch all give "YYYY-05". |
| MonthKeys.CanonicalPrefixBucket | src/lib/analyzer.ts:10-11 | A string that starts with a canonical key (such as "2024-05-01") and reaches the regex branch gives that key. So canonical keys are fixed points. |
| MonthKeys.RegexKeyIsCanonical | src/lib/analyzer.ts:11 | The regex key of a match is the canonical key with the match's year text and month value. |
| MonthKeys.RegexBucket | src/lib/analyzer.ts:10-11 | Any input that reaches the regex branch lands in the canonical key with the matched year and month value. |
| MonthKeys.LeadingMatch | src/lib/analyzer.ts:10 | Four digits at the start, then a digit or a separator and a digit, are the leftmost match. |
| MonthKeys.DigitFreeHasNoMatch | src/lib/analyzer.ts:10 | A string without digits has no regex match. |
| MonthKeys.DigitFreeIsOwnBucket | src/lib/analyzer.ts:12 | A non-empty digit-free string the host cannot parse ("banana") is its own key. |
| MonthKeys.JoinCanonical | src/lib/analyzer.ts:7 | Four digits, "-" and two digits form a canonical key whose parts can be read back. |
| MonthKeys.CanonicalKeysEqual | src/lib/analyzer.ts:11 | Two canonical keys with the same year and month text are equal. |
| Text.NatToString | src/lib/analyzer.ts:7 | `String(n)` of a natural number is non-empty decimal digits whose value is n. It is canonical: "0" for 0, and no leading zero otherwise. |
| Text.IntToString | src/lib/analyzer.ts:73 | `${n}` of an integer is a decimal numeral with value n, with a leading "-" exactly when n is negative. It is canonical: "0" for 0, and no leading zero after the sign otherwise. |
| Text.PadStart | src/lib/analyzer.ts:7 | `padStart` keeps the string as a suffix. It fills only in front, up to the width. |
| Text.PaddedTwoDigits | src/lib/analyzer.ts:11 | A value below 100, padded to width 2, is two digits whose value is that value. |
| Text.TwoDigits | src/lib/analyzer.ts:11 | The padded form of a value below 100 is its tens digit followed by its units digit. |
| Text.TwoDigitsByValue | src/lib/analyzer.ts:11 | Two two-digit strings with the same value are equal. |
| Text.FourDigitNumber | src/lib/analyzer.ts:7 | A year from 1000 to 9999 prints as four digits. |
| Text.ShortDigitsBound | src/lib/analyzer.ts:10 | One or two digits have a value below 100. |
| Text.StrLess | src/lib/analyzer.ts:42 | The default order of `.sort()`: a proper prefix sorts first, otherwise the first differing character decides. It has no contract of its own; its order laws are the four lemmas below. |
| Text.StrLessIrreflexive | src/lib/analyzer.ts:42 | The default sort order is irreflexive. |
| Text.StrLessTransitive | src/lib/analyzer.ts:42 | The default sort order is transitive. |
| Text.StrLessTotal | src/lib/analyzer.ts:42 | Any two distinct strings are ordered one way or the other. |
| Text.StrLessAsymmetric | src/lib/analyzer.ts:42 | The default sort order is asymmetric. |
| OrderedMap.Get | src/lib/analyzer.ts:29-31 | `m[k]`: the value of the entry stored under k, or null when there is none. It has no contract of its own; `GetSomeIffKey` and `Put` state its meaning. |
| OrderedMap.Put | src/lib/analyzer.ts:29-31 | After `m[k] = v`, `m[k]` is v and every other key reads as before. |
| OrderedMap.PutKeys | src/lib/analyzer.ts:29-31 | Storing keeps the key order. A new key is appended last. |
| OrderedMap.GetSomeIffKey | src/lib/analyzer.ts:29-31 | `m[k]` is defined exactly when k is among the keys. |
| OrderedMap.PutKeepsDistinct | src/lib/analyzer.ts:29-31 | Storing keeps the keys pairwise distinct. |
| OrderedMap.PutPut | src/lib/analyzer.ts:29-36 | Creating a zeroed entry and then overwriting it is the same as storing the final value. |
| OrderedMap.GetAt | src/lib/analyzer.ts:50 | With distinct keys, an entry of `Object.entries` is what its key looks up. |
| OrderedMap.SumByPut | src/lib/analyzer.ts:33-39 | Storing v under k changes a sum over the values by f(v) minus what k held. |
| OrderedMap.SumOverOwnKeys | src/lib/analyzer.ts:42-43 | With distinct keys, summing over the key list is the same as summing over the map. |
| OrderedMap.SumOverKeysAgree | src/lib/analyzer.ts:43 | Sums over keys depend only on the values under those keys. |
| OrderedMap.Keys | src/lib/analyzer.ts:42 | `Object.keys` has one key per entry, in entry order. |
| Sorting.SortAscending | src/lib/analyzer.ts:42 | `.sort()` returns a permutation of the keys. For distinct keys it is strictly ascending. |
| Sorting.InsertAscending | src/lib/analyzer.ts:42 | Inserting into an ascending list keeps the multiset and the order. |
| Sorting.AscendingCons | src/lib/analyzer.ts:42 | A string below the head of an ascending list can go in front. |
| Sorting.SortAscendingMembers | src/lib/analyzer.ts:42 | Sorting neither adds nor drops a key. |
| Sorting.SumOverSortedKeys | src/lib/analyzer.ts:42-43 | Sorting the month keys does not change the sum over them. |
| Sorting.SumOverInserted | src/lib/analyzer.ts:42-43 | Inserting a key adds exactly its amount to the sum. |
| Sorting.SumOverKeysAppend | src/lib/analyzer.ts:42-43 | Appending a key adds exactly its amount to the sum. |
| Sorting.InsertDescending | src/lib/analyzer.ts:63 | Insertion adds one element. The head is the old head unless the new element's key is strictly larger. |
| Sorting.InsertionPoint | src/lib/analyzer.ts:63 | The insertion point comes after every element with a key at least the new one's, and before the first element with a smaller key. |
| Sorting.InsertDescendingPlace | src/lib/analyzer.ts:63 | Insertion puts the new element at its insertion point and keeps the other elements in order, so equal keys keep their original order. |
| Sorting.StableSortDescending | src/lib/analyzer.ts:63 | The stable descending sort keeps the length. |
| Sorting.FirstMaxIndex | src/lib/analyzer.ts:63 | The first position of the largest key: nothing is larger, and everything before it is smaller. |
| Sorting.StableSortHead | src/lib/analyzer.ts:63 | The head of the stable descending sort is the first element with the largest key. |
| Analyzer.Round | src/lib/analyzer.ts:56 | `Math.round(x)` is within one half of x: x - 1/2 < result <= x + 1/2. |
| Analyzer.MonthOf | src/lib/analyzer.ts:28 | Every record's month key is non-empty. |
| Analyzer.AccumulateProduct | src/lib/analyzer.ts:29-36 | After one record, its product is a key, and that product's quantity and revenue have grown by the record's. |
| Analyzer.AccumulateMonth | src/lib/analyzer.ts:31-39 | After one record, its month's entry holds the month's earlier totals (zero for a new month) plus the record. |
| Analyzer.Accumulate | src/lib/analyzer.ts:27-40 | After one iteration, the record's product and month are both keys. |
| Analyzer.Group | src/lib/analyzer.ts:27-40 | After the loop, the last record's product and month are keys. The full characterisation is in `GroupingFacts`. |
| Analyzer.SortedMonths | src/lib/analyzer.ts:42 | The month list holds exactly the non-empty keys of `byMonth`. |
| Analyzer.Growth | src/lib/analyzer.ts:54 | Growth is 100 when the previous month sold 0. Otherwise it is positive exactly when the last month sold more, and zero exactly when it sold the same. With a positive previous quantity and a non-negative last one, it is at least -100. |
| Analyzer.TrendingStep | src/lib/analyzer.ts:51-57 | One iteration. A product with no positive last-month quantity leaves the choice unchanged. Otherwise the product replaces the choice exactly when there is none or its raw growth is strictly greater than the stored `growthPct`. A replacement stores its rounded growth and its last-month quantity. A choice is never dropped, and the first candidate is always taken. |
| Analyzer.ScanTrending | src/lib/analyzer.ts:50-59 | The scan's choice reports a positive last-month quantity. Which candidate it chooses is stated by `TrendingFacts.ScanTrendingPicks`. |
| Analyzer.QtyIn | src/lib/analyzer.ts:51-52 | `stats.byMonth[m]?.qty ?? 0`: the product's quantity in month m, or 0 when it has no entry for m. It has no contract of its own; `TrendingStep` and `ScanTrendingChoice` state its use. |
| Analyzer.HasTwoMonths | src/lib/analyzer.ts:47-49 | `last && prev`: at least two months, and both latest keys are non-empty. It has no contract of its own; `ChooseTrending` and `TrendingCases` state its use. |
| Analyzer.TopByQty | src/lib/analyzer.ts:61-65 | The fallback is null exactly when there are no products, and it reports `growthPct` 0. |
| Analyzer.Trending | src/lib/analyzer.ts:46-65 | The trending product is null exactly when there are no products. |
| Analyzer.Peak | src/lib/analyzer.ts:67-70 | The peak is null exactly when there are no months. |
| Analyzer.SpikeAlert | src/lib/analyzer.ts:73 | The alert reads back as the product name, " sales spiked ", the numeral of `growthPct`, and "%". |
| Analyzer.DemandAlert | src/lib/analyzer.ts:74 | The alert is "Highest demand: " followed by the peak's month key. |
| Analyzer.RevenueChangePct | src/lib/analyzer.ts:75-77 | The change is 0 when revenue is unchanged. It is at least -100 when the previous revenue is positive and the last is not negative. |
| Analyzer.RevenueAlert | src/lib/analyzer.ts:78 | The alert starts "Revenue up " for a non-negative change and "Revenue down " otherwise. It ends "% MoM", and between them is the canonical numeral of the change's magnitude. |
| Analyzer.Analyze | src/lib/analyzer.ts:23-86 | The snapshot's alerts are the quick alerts of its own trending product, peak and series. Its totals have the keys of `byProduct`, in order. |
| Analyzer.NonEmptyKeys | src/lib/analyzer.ts:42 | `.filter(Boolean)` keeps exactly the non-empty keys. When none is empty it changes nothing. |
| Analyzer.RevenueSeries | src/lib/analyzer.ts:43 | One point per month, in order, holding that month's revenue. |
| Analyzer.MonthPeaks | src/lib/analyzer.ts:69 | One candidate per month, in order, holding that month's quantity. |
| Analyzer.QuickAlerts | src/lib/analyzer.ts:72-79 | At most three alerts, one per available signal, in the order trending, peak, revenue. |
| Analyzer.TotalsByProduct | src/lib/analyzer.ts:81-83 | The totals map has the same keys in the same order as `byProduct`. |
| Analyzer.AddToProduct | src/lib/analyzer.ts:29-30 | The get-or-create of a product and its month entry, then the additions, equal `AccumulateProduct`. |
| Analyzer.AddToMonth | src/lib/analyzer.ts:31 | The get-or-create of a month entry, then the additions, equal `AccumulateMonth`. |
| Analyzer.GroupRecords | src/lib/analyzer.ts:27-40 | The grouping loop builds `Group(records)`. |
| Analyzer.FindTrending | src/lib/analyzer.ts:50-59 | The trending loop over `Object.entries(byProduct)` computes `ScanTrending`. |
| Analyzer.ChooseTrending | src/lib/analyzer.ts:46-65 | The scan runs only when the two latest months exist. The fallback applies when the scan finds nothing. |
| Analyzer.BuildAlerts | src/lib/analyzer.ts:72-79 | The pushes build `QuickAlerts`. |
| Analyzer.AnalyzeSales | src/lib/analyzer.ts:23-86 | `analyzeSales` returns `Analyze(records)`. |
| GroupingFacts.FirstAppearances | src/lib/analyzer.ts:29 | Each value once, in first-occurrence order, with nothing added or lost. |
| GroupingFacts.Products | src/lib/analyzer.ts:27 | The product of each record, in record order. |
| GroupingFacts.Months | src/lib/analyzer.ts:28 | The month key of each record, in record order. |
| GroupingFacts.GroupKeyOrder | src/lib/analyzer.ts:29-31 | `Object.keys(byProduct)` lists each product once, in order of first occurrence. The same holds for `byMonth` and months. |
| GroupingFacts.GroupProductOrder | src/lib/analyzer.ts:27-29 | `Object.keys(byProduct)` lists each product once, in order of first occurrence. |
| GroupingFacts.GroupMonthOrder | src/lib/analyzer.ts:27-31 | `Object.keys(byMonth)` lists each month key once, in order of first occurrence. |
| GroupingFacts.GroupKeysDistinct | src/lib/analyzer.ts:29-31 | Both maps have distinct keys. Every month key is non-empty. |
| GroupingFacts.ByMonthEntry | src/lib/analyzer.ts:31-39 | `byMonth[m]` exists exactly for the months some record falls in. It holds the sums of those records. |
| GroupingFacts.ByProductEntry | src/lib/analyzer.ts:29-34 | `byProduct[p]` exists exactly for the products some record names. It holds that product's sums. |
| GroupingFacts.ByProductMonthEntry | src/lib/analyzer.ts:30-36 | `byProduct[p].byMonth[m]` holds the sums of p's records in month m. |
| GroupingFacts.ProductSubTotalsAddUp | src/lib/analyzer.ts:33-36 | Each product's month sub-totals add up to its totals. |
| GroupingFacts.GroupConservesTotals | src/lib/analyzer.ts:27-40 | Month totals and product totals each add up to the quantity and revenue of all records. |
| GroupingFacts.FirstAppearancesSnoc | src/lib/analyzer.ts:29 | One more value leaves the first-occurrence order alone or appends that value. |
| GroupingFacts.AccumulateMonthEntry | src/lib/analyzer.ts:31-39 | One record changes only its own month's entry, which grows by the record's quantity and revenue. |
| GroupingFacts.AccumulateProductKeys | src/lib/analyzer.ts:29 | One record leaves the product key order alone or appends its product. |
| GroupingFacts.AccumulateMonthKeys | src/lib/analyzer.ts:31 | One record leaves the month key order alone or appends its month. |
| GroupingFacts.AccumulateProductEntry | src/lib/analyzer.ts:29-36 | One record changes only its own product's entry and that product's month sub-total. |
| GroupingFacts.AccumulateMonthSums | src/lib/analyzer.ts:38-39 | One record adds exactly its quantity and revenue to the month sums. |
| GroupingFacts.AccumulateProductSums | src/lib/analyzer.ts:33-34 | One record adds exactly its quantity and revenue to the product sums. |
| GroupingFacts.AccumulateKeepsSubTotals | src/lib/analyzer.ts:33-36 | One record keeps each product's sub-totals adding up to its totals. |
| TrendingFacts.ScanTrendingChoice | src/lib/analyzer.ts:50-59 | The scan finds nothing exactly when no product sold in the last month. Otherwise it picks such a product, with `total` equal to its last-month quantity and `growthPct` equal to its rounded growth. |
| TrendingFacts.NewProductGrowth | src/lib/analyzer.ts:54-56 | A product with no sales in the previous month gets `growthPct` 100. |
| TrendingFacts.ScanTrendingPicks | src/lib/analyzer.ts:50-59 | The scan's result is the choice of one candidate i. Every earlier candidate's rounded growth is strictly below i's raw growth. No later candidate's raw growth exceeds i's rounded growth. So among candidates with equal growth, the first one stays. |
| TrendingFacts.PicksAtUnique | src/lib/analyzer.ts:50-59 | At most one position meets the condition of `ScanTrendingPicks`, so the chosen product is determined. |
| TrendingFacts.ScanTrendingKeepsFirstOnTie | src/lib/analyzer.ts:55 | Two products new in the last month both grow by 100. The scan keeps the first one, because 100 > 100 is false. |
| TrendingFacts.ScanTrendingKeepsLargestRounded | src/lib/analyzer.ts:53-57 | The stored `growthPct` is at least the rounded growth of every candidate. With `ScanTrendingChoice`, it is the largest rounded growth. |
| TrendingFacts.ScanTrendingGrowthBound | src/lib/analyzer.ts:53-57 | Every candidate's raw growth is below the stored `growthPct` plus one half. |
| TrendingFacts.RoundMonotone | src/lib/analyzer.ts:56 | `Math.round` is monotone. |
| TrendingFacts.ScanTrendingPicksLaterLowerGrowth | src/lib/analyzer.ts:55 | On two concrete products, the scan picks the product with the smaller raw growth (see Findings). |
| TrendingFacts.ScanIntended | src/lib/analyzer.ts:50-59 | The corrected scan picks a candidate whose raw growth no candidate exceeds. Every earlier candidate has strictly smaller growth. It finds nothing exactly when there is no candidate. |
| TrendingFacts.TrendingIntended | src/lib/analyzer.ts:46-65 | With a candidate, the corrected trending product is a candidate of largest raw growth, reported with its rounded growth and last-month quantity. |
| TrendingFacts.TopByQtyIsFirstLargest | src/lib/analyzer.ts:61-65 | The fallback is the first product with the largest lifetime quantity, with `growthPct` 0 and `total` equal to that quantity. It is null only without products. |
| TrendingFacts.TrendingCases | src/lib/analyzer.ts:46-65 | Trending is the scan's choice when two months exist and there is a candidate. Otherwise it is the fallback. It is null exactly when there are no products. |
| SnapshotFacts.SeriesConservesRevenue | src/lib/analyzer.ts:42-43 | The revenue series adds up to the revenue of all records. |
| SnapshotFacts.SeriesRevenueOverMonths | src/lib/analyzer.ts:43 | The series' revenue is the sum over its months of the month revenues. |
| SnapshotFacts.SeriesMonths | src/lib/analyzer.ts:43 | The months of the series, in series order. |
| SnapshotFacts.SortedMonthsFacts | src/lib/analyzer.ts:42 | Over distinct non-empty keys, the month list holds each key once, in strictly ascending order. |
| SnapshotFacts.SortedMonthsOfGroup | src/lib/analyzer.ts:42 | The month list holds exactly the months some record falls in, strictly ascending. |
| SnapshotFacts.SeriesOfGroup | src/lib/analyzer.ts:42-43 | One series point per distinct month of the records, strictly ascending, each with that month's revenue. |
| SnapshotFacts.SeriesListsEveryMonth | src/lib/analyzer.ts:42-43 | `SeriesOfGroup` for the snapshot of `analyzeSales`. |
| SnapshotFacts.TotalsByProductEntry | src/lib/analyzer.ts:81-83 | Each product's entry in the totals map is its quantity and revenue. |
| SnapshotFacts.TotalsByProductSums | src/lib/analyzer.ts:81-83 | The totals map adds up to the same sums as `byProduct`. |
| SnapshotFacts.TotalsByProductFacts | src/lib/analyzer.ts:81-83 | `totalsByProduct` lists products in first-occurrence order. Each holds the sums of its records, and all of them add up to the whole batch. |
| SnapshotFacts.EmptyInput | src/lib/analyzer.ts:23-86 | No records give no trending product, no peak, an empty series, no alerts and empty totals. |
| SnapshotFacts.GroupEmptyIffNoRecords | src/lib/analyzer.ts:27-40 | Both maps are empty exactly when there are no records. |
| SnapshotFacts.TrendingAndPeakExist | src/lib/analyzer.ts:61-70 | The trending product and the peak month are present exactly when there are records. |
| SnapshotFacts.ProductEntryAt | src/lib/analyzer.ts:29-36 | An entry of `byProduct` is a product of the records. It holds that product's lifetime quantity and its quantity in any month. |
| SnapshotFacts.ScanChoiceOfGroup | src/lib/analyzer.ts:50-59 | The scan's choice is a product of the records. Its `total` is its positive quantity in the scanned last month. |
| SnapshotFacts.TopOfGroup | src/lib/analyzer.ts:61-65 | The fallback is a product of the records, with `growthPct` 0 and `total` equal to its lifetime quantity. |
| SnapshotFacts.TrendingOfGroup | src/lib/analyzer.ts:46-65 | For any month list, the trending product is a product of the records. Either it is the fallback, or it reports its positive quantity in the last month of the list. |
| SnapshotFacts.TrendingOfRecords | src/lib/analyzer.ts:23-65 | `TrendingOfGroup` for the snapshot of `analyzeSales`, with the latest month of the records. |
| SnapshotFacts.PeakIsFirstLargest | src/lib/analyzer.ts:68-70 | The peak is null exactly without months. Otherwise it is the first month of largest quantity. |
| SnapshotFacts.PeakOverAscendingMonths | src/lib/analyzer.ts:68-70 | Over ascending months, no month beats the peak, and every month sorting before it has a smaller quantity. |
| SnapshotFacts.PeakOfGroup | src/lib/analyzer.ts:67-70 | The peak month is a month of the records with that month's quantity. No month has more, and every month sorting before it has strictly less, so the earliest month wins a tie. |
| SnapshotFacts.PeakMonthOfRecords | src/lib/analyzer.ts:67-70 | `PeakOfGroup` for the snapshot of `analyzeSales`. |
| SnapshotFacts.SingleMonth | src/lib/analyzer.ts:47-49 | When all records fall in one month, the series has at most one point, trending is the fallback, and there is no revenue alert. |
| SnapshotFacts.RevenueAlertDirection | src/lib/analyzer.ts:75-78 | The revenue change is non-negative ("up") when revenue did not fall, and at most zero when it fell. |

## Left out

- The date parser itself (`new Date(input)`, `getFullYear`, `getMonth`, lines 5-8) is a parameter. Its locale and time-zone behaviour is host code and is not modelled.
- Floating point: quantities and revenues are integers, and growth and revenue change are exact rationals. IEEE rounding and the exponent notation of very large numbers in `${...}` are not modelled.
- Analyzer.Round: rounds exactly, where `Math.round` works on a double.
- JavaScript lists integer-like object keys (such as "7") before other keys. The model uses first-insertion order for all keys.
- The default sort compares UTF-16 code units. The model compares characters, which agrees on the Basic Multilingual Plane.
- Keys that collide with `Object.prototype` members (`"constructor"`, `"toString"`, `"__proto__"`) are not modelled. For such a product, `byProduct[r.product]` at line 29 returns the inherited member, which is truthy, so no entry is created. Line 30 then reads its `byMonth`, which is `undefined`, and indexing `undefined[month]` throws a TypeError. A month key such as `"constructor"` (one that no parser recognises and so passes through unchanged) is worse: lines 30-31 find the truthy inherited member and create no entry, lines 35-39 write NaN onto that member, and the month never appears in `Object.keys(byMonth)`. The record's sales are then silently missing from the series, so `GroupConservesTotals` and `SeriesConservesRevenue` do not hold in the source for such input. The model treats every name as an ordinary key.
- The permutation-invariance of the totals is not proved as a lemma. The totals are characterised as sums over the matching records (`ByMonthEntry`, `ByProductEntry`), which do not depend on record order.
- Sorting.StableSortDescending: only its head is characterised (`StableSortHead`), since only the first element is used. Full sortedness and permutation are not proved.
- The CSV reader that produces the records, and the UI that renders the snapshot, are not part of this model.

## Findings

| source | as written | input that shows it | evidently intended | confidence | as-written member | corrected member |
|---|---|---|---|---|---|---|
| src/lib/analyzer.ts:55 | A product replaces the current choice when its raw growth exceeds the current choice's rounded `growthPct`. | Product A grows 3 to 4 (33.3%, stored as 33), then B grows 1000 to 1332 (33.2%). B replaces A because 33.2 > 33, although A grew more. | Pick the product with the largest growth, the first among ties. | not executed | TrendingFacts.ScanTrendingPicksLaterLowerGrowth | TrendingFacts.ScanIntended |

`AnalyzeSales` keeps the comparison as written. `TrendingIntended` is the
trending selection with the corrected scan and the same fallback.

=== FILE: analyzer.dfy ===
/**
 * The sales aggregation engine (`analyzeSales` in src/lib/analyzer.ts): one
 * pass over the records builds per-product and per-month totals in
 * insertion-ordered maps; from them come the revenue series, the trending
 * product, the peak month, the quick alerts and the per-product totals.
 *
 * `Analyze` is the specification: a function of the records, built from one
 * function per step. `AnalyzeSales` is the engine itself, with the source's
 * two loops, and is proved to compute `Analyze`.
 */
module Analyzer {
  import opened Wrappers
  import opened Text
  import opened MonthKeys
  import opened OrderedMap
  import opened Sorting

  /** One sales row as the record source delivers it. */
  datatype SaleRecord = SaleRecord(date: string, product: string, qty: int, revenue: int)

  /** Running `{ qty, revenue }` totals. */
  datatype Totals = Totals(qty: int, revenue: int)

  /** A product's running totals and its sub-totals per month key. */
  datatype ProductStats = ProductStats(qty: int, revenue: int, byMonth: Assoc<Totals>)

  datatype TrendingProduct = TrendingProduct(name: string, growthPct: int, total: int)

  /** `{ label, totalQty }`: `label` is a reserved word in Dafny, so the month key is the field `month`. */
  datatype PeakMonth = PeakMonth(month: string, totalQty: int)

  datatype RevenuePoint = RevenuePoint(month: string, revenue: int)

  /** The engine's result. */
  datatype Snapshot = Snapshot(
    trendingProduct: Option<TrendingProduct>,
    peakMonth: Option<PeakMonth>,
    revenueSeries: seq<RevenuePoint>,
    quickAlerts: seq<string>,
    totalsByProduct: Assoc<Totals>)

  /** The two keyed maps the grouping loop builds: `byProduct` and `byMonth`. */
  datatype Groups = Groups(byProduct: Assoc<ProductStats>, byMonth: Assoc<Totals>)

  const NoTotals: Totals := Totals(0, 0)
  const NoStats: ProductStats := ProductStats(0, 0, [])

  function QtyOf(t: Totals): int { t.qty }
  function RevenueOf(t: Totals): int { t.revenue }
  function StatsQty(s: ProductStats): int { s.qty }
  function StatsRevenue(s: ProductStats): int { s.revenue }

  function Max(a: int, b: int): int { if a < b then b else a }

  function Abs(n: int): nat { if n < 0 then -n else n }

  /** `Math.round`: the nearest integer, halves rounded up. */
  function Round(x: real): (n: int)
    ensures x - 0.5 < n as real <= x + 0.5
  {
    (x + 0.5).Floor
  }

  /** How the grouping loop keys a record by month. */
  type MonthKeyOf = SaleRecord -> string

  /** `toMonthKey(r.date)`, with the host's date parser. */
  function MonthOf(hostParse: HostParser): (monthOf: MonthKeyOf)
    ensures forall r :: monthOf(r) != ""
  {
    (r: SaleRecord) => ToMonthKey(r.date, hostParse)
  }

  function Add(t: Totals, r: SaleRecord): Totals {
    Totals(t.qty + r.qty, t.revenue + r.revenue)
  }

  // ---------------------------------------------------------------- grouping

  /** The effect of one record on `byProduct`: its product's totals and month sub-totals grow by the record. */
  function AccumulateProduct(byProduct: Assoc<ProductStats>, r: SaleRecord, month: string): (after: Assoc<ProductStats>)
    ensures var before := Get(byProduct, r.product).GetOr(NoStats);
            && Get(after, r.product).Some?
            && Get(after, r.product).value.qty == before.qty + r.qty
            && Get(after, r.product).value.revenue == before.revenue + r.revenue
  {
    var stats := Get(byProduct, r.product).GetOr(NoStats);
    var sub := Get(stats.byMonth, month).GetOr(NoTotals);
    Put(byProduct, r.product,
        ProductStats(stats.qty + r.qty, stats.revenue + r.revenue, Put(stats.byMonth, month, Add(sub, r))))
  }

  /** The effect of one record on `byMonth`: its month's totals grow by the record. */
  function AccumulateMonth(byMonth: Assoc<Totals>, r: SaleRecord, month: string): (after: Assoc<Totals>)
    ensures var before := Get(byMonth, month).GetOr(NoTotals);
            Get(after, month) == Some(Totals(before.qty + r.qty, before.revenue + r.revenue))
  {
    Put(byMonth, month, Add(Get(byMonth, month).GetOr(NoTotals), r))
  }

  /** The effect of one record on the two maps (one iteration of the grouping loop). */
  function Accumulate(g: Groups, r: SaleRecord, month: string): (after: Groups)
    ensures Get(after.byProduct, r.product).Some? && Get(after.byMonth, month).Some?
  {
    Groups(AccumulateProduct(g.byProduct, r, month), AccumulateMonth(g.byMonth, r, month))
  }

  /** The maps after the grouping loop has consumed `records` in order. */
  function Group(records: seq<SaleRecord>, monthOf: MonthKeyOf): (g: Groups)
    ensures records != [] ==>
              var last := records[|records| - 1];
              Get(g.byProduct, last.product).Some? && Get(g.byMonth, monthOf(last)).Some?
    decreases |records|
  {
    if records == [] then Groups([], [])
    else
      var n := |records| - 1;
      Accumulate(Group(records[..n], monthOf), records[n], monthOf(records[n]))
  }

  // ---------------------------------------------------------- revenue series

  /** `.filter(Boolean)` on keys: drops the empty string. */
  function NonEmptyKeys(ks: seq<string>): (r: seq<string>)
    ensures forall k :: k in r <==> k in ks && k != ""
    ensures (forall i :: 0 <= i < |ks| ==> ks[i] != "") ==> r == ks
  {
    if ks == [] then []
    else if ks[0] == "" then NonEmptyKeys(ks[1..])
    else [ks[0]] + NonEmptyKeys(ks[1..])
  }

  /** `Object.keys(byMonth).filter(Boolean).sort()`. */
  function SortedMonths(byMonth: Assoc<Totals>): (months: seq<string>)
    ensures forall k :: k in months <==> k in Keys(byMonth) && k != ""
  {
    SortAscendingMembers(NonEmptyKeys(Keys(byMonth)));
    SortAscending(NonEmptyKeys(Keys(byMonth)))
  }

  /** `months.map((m) => ({ month: m, revenue: byMonth[m].revenue }))`. */
  function RevenueSeries(months: seq<string>, byMonth: Assoc<Totals>): (series: seq<RevenuePoint>)
    ensures |series| == |months|
    ensures forall i :: 0 <= i < |months| ==>
              series[i] == RevenuePoint(months[i], AmountOf(byMonth, months[i], RevenueOf))
  {
    if months == [] then []
    else [RevenuePoint(months[0], AmountOf(byMonth, months[0], RevenueOf))] + RevenueSeries(months[1..], byMonth)
  }

  // -------------------------------------------------------- trending product

  /** `stats.byMonth[month]?.qty ?? 0`. */
  function QtyIn(stats: ProductStats, month: string): int {
    AmountOf(stats.byMonth, month, QtyOf)
  }

  /** Month-over-month growth in percent, before rounding; 100 for a product new in the last month. */
  function Growth(l: int, p: int): (growth: real)
    ensures p == 0 ==> growth == 100.0
    ensures p != 0 ==> (growth > 0.0 <==> l > p) && (growth == 0.0 <==> l == p)
    ensures p > 0 && l >= 0 ==> growth >= -100.0
  {
    if p == 0 then 100.0 else ((l - p) as real / Max(1, p) as real) * 100.0
  }

  /**
   * One iteration of the trending loop: a product with positive quantity in
   * the last month replaces the current choice when there is none or when its
   * raw growth exceeds the current choice's rounded `growthPct`.
   */
  function TrendingStep(t: Option<TrendingProduct>, name: string, stats: ProductStats,
                        last: string, prev: string): (r: Option<TrendingProduct>)
    ensures var l := QtyIn(stats, last);
            r == t || (l > 0 && r == Some(TrendingProduct(name, Round(Growth(l, QtyIn(stats, prev))), l)))
    ensures t.None? && QtyIn(stats, last) > 0 ==> r.Some?
    ensures t.Some? ==> r.Some?
    ensures QtyIn(stats, last) <= 0 ==> r == t
    ensures var l := QtyIn(stats, last);
            l > 0 ==> r == (if t.None? || Growth(l, QtyIn(stats, prev)) > t.value.growthPct as real
                            then Some(TrendingProduct(name, Round(Growth(l, QtyIn(stats, prev))), l))
                            else t)
  {
    var l := QtyIn(stats, last);
    var p := QtyIn(stats, prev);
    if l > 0 then
      var growth := Growth(l, p);
      if t.None? || growth > t.value.growthPct as real then Some(TrendingProduct(name, Round(growth), l))
      else t
    else t
  }

  /** The trending loop over `Object.entries(byProduct)`, in insertion order. */
  function ScanTrending(entries: Assoc<ProductStats>, last: string, prev: string): (r: Option<TrendingProduct>)
    ensures r.Some? ==> r.value.total > 0
    decreases |entries|
  {
    if entries == [] then None
    else
      var n := |entries| - 1;
      TrendingStep(ScanTrending(entries[..n], last, prev), entries[n].0, entries[n].1, last, prev)
  }

  function LifetimeQty(e: (string, ProductStats)): int { e.1.qty }

  /** The fallback: the first entry of `Object.entries(byProduct)` stably sorted by lifetime quantity, descending. */
  function TopByQty(byProduct: Assoc<ProductStats>): (top: Option<TrendingProduct>)
    ensures top.None? <==> byProduct == []
    ensures top.Some? ==> top.value.growthPct == 0
  {
    var sorted := StableSortDescending(byProduct, LifetimeQty);
    if sorted == [] then None else Some(TrendingProduct(sorted[0].0, 0, sorted[0].1.qty))
  }

  /** Whether the two latest month keys exist (`last && prev`). */
  predicate HasTwoMonths(months: seq<string>) {
    |months| >= 2 && months[|months| - 1] != "" && months[|months| - 2] != ""
  }

  function Trending(byProduct: Assoc<ProductStats>, months: seq<string>): (t: Option<TrendingProduct>)
    ensures t.None? <==> byProduct == []
  {
    var scanned := if HasTwoMonths(months) then ScanTrending(byProduct, months[|months| - 1], months[|months| - 2]) else None;
    if scanned.Some? then scanned else TopByQty(byProduct)
  }

  // -------------------------------------------------------------- peak month

  function PeakQty(p: PeakMonth): int { p.totalQty }

  /** `months.map((m) => ({ label: m, totalQty: byMonth[m].qty }))`. */
  function MonthPeaks(months: seq<string>, byMonth: Assoc<Totals>): (peaks: seq<PeakMonth>)
    ensures |peaks| == |months|
    ensures forall i :: 0 <= i < |months| ==> peaks[i] == PeakMonth(months[i], AmountOf(byMonth, months[i], QtyOf))
  {
    if months == [] then []
    else [PeakMonth(months[0], AmountOf(byMonth, months[0], QtyOf))] + MonthPeaks(months[1..], byMonth)
  }

  /** The first element of the month list stably sorted by quantity, descending, or null. */
  function Peak(months: seq<string>, byMonth: Assoc<Totals>): (peak: Option<PeakMonth>)
    ensures peak.None? <==> months == []
  {
    var sorted := StableSortDescending(MonthPeaks(months, byMonth), PeakQty);
    if sorted == [] then None else Some(sorted[0])
  }

  // ------------------------------------------------------------------ alerts

  function SpikeAlert(t: TrendingProduct): (alert: string)
    ensures var n := |t.name| + 14;
            && |alert| > n + 1 && alert[..|t.name|] == t.name && alert[|t.name|..n] == " sales spiked "
            && alert[n..|alert| - 1] == IntToString(t.growthPct) && alert[|alert| - 1] == '%'
  {
    t.name + " sales spiked " + IntToString(t.growthPct) + "%"
  }

  function DemandAlert(p: PeakMonth): (alert: string)
    ensures |alert| == 16 + |p.month| && alert[..16] == "Highest demand: " && alert[16..] == p.month
  {
    "Highest demand: " + p.month
  }

  /** Month-over-month revenue change of the last two points, in percent, rounded. */
  function RevenueChangePct(series: seq<RevenuePoint>): (pct: int)
    requires |series| >= 2
    ensures series[|series| - 2].revenue >= 1 && series[|series| - 1].revenue >= 0 ==> pct >= -100
    ensures series[|series| - 1].revenue == series[|series| - 2].revenue ==> pct == 0
  {
    var curr := series[|series| - 1].revenue;
    var prev := series[|series| - 2].revenue;
    Round(((curr - prev) as real / Max(1, prev) as real) * 100.0)
  }

  function RevenueAlert(pct: int): (alert: string)
    ensures var head := if pct >= 0 then "Revenue up " else "Revenue down ";
            && |alert| > |head| + 5 && alert[..|head|] == head && alert[|alert| - 5..] == "% MoM"
            && var num := alert[|head|..|alert| - 5];
               AllDigits(num) && DigitsValue(num) == Abs(pct) && (num[0] == '0' ==> num == "0")
  {
    "Revenue " + (if pct >= 0 then "up" else "down") + " " + NatToString(Abs(pct)) + "% MoM"
  }

  /**
   * Up to three alerts in a fixed order: the trending product, the peak
   * month, the revenue change; each only when its signal exists.
   */
  function QuickAlerts(trending: Option<TrendingProduct>, peak: Option<PeakMonth>,
                       series: seq<RevenuePoint>): (alerts: seq<string>)
    ensures |alerts| == (if trending.Some? then 1 else 0) + (if peak.Some? then 1 else 0) + (if |series| >= 2 then 1 else 0)
    ensures trending.Some? ==> alerts[0] == SpikeAlert(trending.value)
    ensures peak.Some? ==> alerts[if trending.Some? then 1 else 0] == DemandAlert(peak.value)
    ensures |series| >= 2 ==> alerts[|alerts| - 1] == RevenueAlert(RevenueChangePct(series))
  {
    var withTrending := if trending.Some? then [SpikeAlert(trending.value)] else [];
    var withPeak := if peak.Some? then withTrending + [DemandAlert(peak.value)] else withTrending;
    if |series| >= 2 then withPeak + [RevenueAlert(RevenueChangePct(series))] else withPeak
  }

  // ---------------------------------------------------------------- totals

  /** `Object.fromEntries(Object.entries(byProduct).map(([k, v]) => [k, { qty: v.qty, revenue: v.revenue }]))`. */
  function TotalsByProduct(byProduct: Assoc<ProductStats>): (totals: Assoc<Totals>)
    ensures Keys(totals) == Keys(byProduct)
  {
    if byProduct == [] then []
    else
      var (name, stats) := byProduct[0];
      [(name, Totals(stats.qty, stats.revenue))] + TotalsByProduct(byProduct[1..])
  }

  // ------------------------------------------------------------------ engine

  /** The snapshot `analyzeSales` returns for `records`. */
  function Analyze(records: seq<SaleRecord>, hostParse: HostParser): (snapshot: Snapshot)
    ensures snapshot.quickAlerts == QuickAlerts(snapshot.trendingProduct, snapshot.peakMonth, snapshot.revenueSeries)
    ensures Keys(snapshot.totalsByProduct) == Keys(Group(records, MonthOf(hostParse)).byProduct)
  {
    var g := Group(records, MonthOf(hostParse));
    var months := SortedMonths(g.byMonth);
    var series := RevenueSeries(months, g.byMonth);
    var trending := Trending(g.byProduct, months);
    var peak := Peak(months, g.byMonth);
    Snapshot(trending, peak, series, QuickAlerts(trending, peak, series), TotalsByProduct(g.byProduct))
  }

  /** Lines 29, 30 and 33-36 of the grouping loop: get-or-create the product's entries, then add the record. */
  method AddToProduct(byProduct0: Assoc<ProductStats>, r: SaleRecord, month: string)
    returns (byProduct: Assoc<ProductStats>)
    ensures byProduct == AccumulateProduct(byProduct0, r, month)
  {
    byProduct := byProduct0;
    ghost var stats0 := Get(byProduct0, r.product).GetOr(NoStats);
    // once `touched` holds, byProduct is byProduct0 with r.product set to `put`
    ghost var touched, put := false, NoStats;
    if Get(byProduct, r.product).None? {
      byProduct := Put(byProduct, r.product, NoStats);
      touched := true;
    }
    var stats := Get(byProduct, r.product).value;
    assert stats == stats0;
    if Get(stats.byMonth, month).None? {
      PutPut(stats0.byMonth, month, NoTotals, Add(NoTotals, r));
      stats := stats.(byMonth := Put(stats.byMonth, month, NoTotals));
      if touched {
        PutPut(byProduct0, r.product, put, stats);
      }
      byProduct := Put(byProduct, r.product, stats);
      touched, put := true, stats;
    }
    var sub := Get(stats.byMonth, month).value;
    assert sub == Get(stats0.byMonth, month).GetOr(NoTotals);
    stats := ProductStats(stats.qty + r.qty, stats.revenue + r.revenue,
                          Put(stats.byMonth, month, Totals(sub.qty + r.qty, sub.revenue + r.revenue)));
    if touched {
      PutPut(byProduct0, r.product, put, stats);
    }
    byProduct := Put(byProduct, r.product, stats);
  }

  /** Lines 31 and 38-39 of the grouping loop: get-or-create the month's entry, then add the record. */
  method AddToMonth(byMonth0: Assoc<Totals>, r: SaleRecord, month: string) returns (byMonth: Assoc<Totals>)
    ensures byMonth == AccumulateMonth(byMonth0, r, month)
  {
    byMonth := byMonth0;
    if Get(byMonth, month).None? {
      PutPut(byMonth0, month, NoTotals, Add(NoTotals, r));
      byMonth := Put(byMonth, month, NoTotals);
    }
    var total := Get(byMonth, month).value;
    byMonth := Put(byMonth, month, Totals(total.qty + r.qty, total.revenue + r.revenue));
  }

  /** The grouping loop of `analyzeSales`. */
  method GroupRecords(records: seq<SaleRecord>, hostParse: HostParser)
    returns (byProduct: Assoc<ProductStats>, byMonth: Assoc<Totals>)
    ensures Groups(byProduct, byMonth) == Group(records, MonthOf(hostParse))
  {
    byProduct, byMonth := [], [];
    for i := 0 to |records|
      invariant Groups(byProduct, byMonth) == Group(records[..i], MonthOf(hostParse))
    {
      var r := records[i];
      var month := ToMonthKey(r.date, hostParse);
      byProduct := AddToProduct(byProduct, r, month);
      byMonth := AddToMonth(byMonth, r, month);
      assert records[..i + 1][..i] == records[..i];
    }
    assert records[..|records|] == records;
  }

  /** The trending loop of `analyzeSales`, over the entries of `byProduct` in insertion order. */
  method FindTrending(byProduct: Assoc<ProductStats>, last: string, prev: string)
    returns (trending: Option<TrendingProduct>)
    ensures trending == ScanTrending(byProduct, last, prev)
  {
    trending := None;
    for j := 0 to |byProduct|
      invariant trending == ScanTrending(byProduct[..j], last, prev)
    {
      var (name, stats) := byProduct[j];
      var l := QtyIn(stats, last);
      var p := QtyIn(stats, prev);
      if l > 0 {
        var growth := Growth(l, p);
        if trending.None? || growth > trending.value.growthPct as real {
          trending := Some(TrendingProduct(name, Round(growth), l));
        }
      }
      assert byProduct[..j + 1][..j] == byProduct[..j];
    }
    assert byProduct[..|byProduct|] == byProduct;
  }

  /** Lines 46-65: the growth scan when two months exist, then the fallback by lifetime quantity. */
  method ChooseTrending(byProduct: Assoc<ProductStats>, months: seq<string>) returns (trending: Option<TrendingProduct>)
    ensures trending == Trending(byProduct, months)
  {
    trending := None;
    if HasTwoMonths(months) {
      trending := FindTrending(byProduct, months[|months| - 1], months[|months| - 2]);
    }
    if trending.None? {
      trending := TopByQty(byProduct);
    }
  }

  /** Lines 72-79: the alerts, pushed in order. */
  method BuildAlerts(trending: Option<TrendingProduct>, peak: Option<PeakMonth>, revenueSeries: seq<RevenuePoint>)
    returns (quickAlerts: seq<string>)
    ensures quickAlerts == QuickAlerts(trending, peak, revenueSeries)
  {
    quickAlerts := [];
    if trending.Some? {
      quickAlerts := quickAlerts + [SpikeAlert(trending.value)];
    }
    assert quickAlerts == if trending.Some? then [SpikeAlert(trending.value)] else [];
    ghost var withTrending := quickAlerts;
    if peak.Some? {
      quickAlerts := quickAlerts + [DemandAlert(peak.value)];
    }
    assert quickAlerts == if peak.Some? then withTrending + [DemandAlert(peak.value)] else withTrending;
    if |revenueSeries| >= 2 {
      quickAlerts := quickAlerts + [RevenueAlert(RevenueChangePct(revenueSeries))];
    }
  }

  /** `analyzeSales`. */
  method AnalyzeSales(records: seq<SaleRecord>, hostParse: HostParser) returns (snapshot: Snapshot)
    ensures snapshot == Analyze(records, hostParse)
  {
    var byProduct, byMonth := GroupRecords(records, hostParse);
    var months := SortedMonths(byMonth);
    var revenueSeries := RevenueSeries(months, byMonth);
    var trending := ChooseTrending(byProduct, months);
    var peak := Peak(months, byMonth);
    var quickAlerts := BuildAlerts(trending, peak, revenueSeries);
    snapshot := Snapshot(trending, peak, revenueSeries, quickAlerts, TotalsByProduct(byProduct));
  }
}

=== FILE: grouping_facts.dfy ===
/**
 * What the grouping loop of `analyzeSales` computes, stated against the
 * records alone: which keys the two maps hold and in which order, and what
 * every entry adds up to.
 */
module GroupingFacts {
  import opened Wrappers
  import opened OrderedMap
  import opened Analyzer

  function Products(records: seq<SaleRecord>): (ps: seq<string>)
    ensures |ps| == |records| && forall i :: 0 <= i < |records| ==> ps[i] == records[i].product
  {
    seq(|records|, i requires 0 <= i < |records| => records[i].product)
  }

  function Months(records: seq<SaleRecord>, monthOf: MonthKeyOf): (ms: seq<string>)
    ensures |ms| == |records| && forall i :: 0 <= i < |records| ==> ms[i] == monthOf(records[i])
  {
    seq(|records|, i requires 0 <= i < |records| => monthOf(records[i]))
  }

  /** Each value of `xs` once, in the order of its first occurrence. */
  function FirstAppearances(xs: seq<string>): (r: seq<string>)
    ensures Distinct(r)
    ensures forall x :: x in r <==> x in xs
    decreases |xs|
  {
    if xs == [] then []
    else
      var n := |xs| - 1;
      assert xs == xs[..n] + [xs[n]];
      var seen := FirstAppearances(xs[..n]);
      if xs[n] in seen then seen else seen + [xs[n]]
  }

  /** Sum of the records' quantities and revenues. */
  function Total(records: seq<SaleRecord>): Totals
    decreases |records|
  {
    if records == [] then NoTotals else Add(Total(records[..|records| - 1]), records[|records| - 1])
  }

  /** Sum over the records of one month. */
  function MonthTotal(records: seq<SaleRecord>, monthOf: MonthKeyOf, month: string): Totals
    decreases |records|
  {
    if records == [] then NoTotals
    else
      var n := |records| - 1;
      var before := MonthTotal(records[..n], monthOf, month);
      if monthOf(records[n]) == month then Add(before, records[n]) else before
  }

  /** Sum over the records of one product. */
  function ProductTotal(records: seq<SaleRecord>, product: string): Totals
    decreases |records|
  {
    if records == [] then NoTotals
    else
      var n := |records| - 1;
      var before := ProductTotal(records[..n], product);
      if records[n].product == product then Add(before, records[n]) else before
  }

  /** Sum over the records of one product in one month. */
  function ProductMonthTotal(records: seq<SaleRecord>, monthOf: MonthKeyOf, product: string, month: string): Totals
    decreases |records|
  {
    if records == [] then NoTotals
    else
      var n := |records| - 1;
      var before := ProductMonthTotal(records[..n], monthOf, product, month);
      if records[n].product == product && monthOf(records[n]) == month then Add(before, records[n]) else before
  }

  /** One record leaves the key order of `byProduct` alone or appends its product. */
  lemma AccumulateProductKeys(byProduct: Assoc<ProductStats>, r: SaleRecord, month: string)
    ensures Keys(AccumulateProduct(byProduct, r, month))
         == if r.product in Keys(byProduct) then Keys(byProduct) else Keys(byProduct) + [r.product]
  {
    var stats := Get(byProduct, r.product).GetOr(NoStats);
    var sub := Get(stats.byMonth, month).GetOr(NoTotals);
    var updated := ProductStats(stats.qty + r.qty, stats.revenue + r.revenue, Put(stats.byMonth, month, Add(sub, r)));
    assert AccumulateProduct(byProduct, r, month) == Put(byProduct, r.product, updated);
    PutKeys(byProduct, r.product, updated);
  }

  /** One record leaves the key order of `byMonth` alone or appends its month. */
  lemma AccumulateMonthKeys(byMonth: Assoc<Totals>, r: SaleRecord, month: string)
    ensures Keys(AccumulateMonth(byMonth, r, month))
         == if month in Keys(byMonth) then Keys(byMonth) else Keys(byMonth) + [month]
  {
    PutKeys(byMonth, month, Add(Get(byMonth, month).GetOr(NoTotals), r));
  }

  /** One record changes only its own product's entry: the totals and its month's sub-totals grow by it. */
  lemma AccumulateProductEntry(byProduct: Assoc<ProductStats>, r: SaleRecord, month: string, product: string, m: string)
    ensures var after := Get(AccumulateProduct(byProduct, r, month), product);
            var before := Get(byProduct, product);
            var s, s0 := after.GetOr(NoStats), before.GetOr(NoStats);
            && (after.Some? <==> before.Some? || product == r.product)
            && Totals(s.qty, s.revenue)
               == (if product == r.product then Add(Totals(s0.qty, s0.revenue), r) else Totals(s0.qty, s0.revenue))
            && Get(s.byMonth, m).GetOr(NoTotals)
               == (if product == r.product && m == month then Add(Get(s0.byMonth, m).GetOr(NoTotals), r)
                   else Get(s0.byMonth, m).GetOr(NoTotals))
  {
  }

  /** One record changes only its own month's entry, which grows by it. */
  lemma AccumulateMonthEntry(byMonth: Assoc<Totals>, r: SaleRecord, month: string, m: string)
    ensures Get(AccumulateMonth(byMonth, r, month), m)
         == if m == month then Some(Add(Get(byMonth, m).GetOr(NoTotals), r)) else Get(byMonth, m)
  {
  }

  /** One record adds its quantity and revenue to the sums over `byMonth`. */
  lemma AccumulateMonthSums(byMonth: Assoc<Totals>, r: SaleRecord, month: string)
    ensures SumBy(AccumulateMonth(byMonth, r, month), QtyOf) == SumBy(byMonth, QtyOf) + r.qty
    ensures SumBy(AccumulateMonth(byMonth, r, month), RevenueOf) == SumBy(byMonth, RevenueOf) + r.revenue
  {
    var total := Add(Get(byMonth, month).GetOr(NoTotals), r);
    SumByPut(byMonth, month, total, QtyOf);
    SumByPut(byMonth, month, total, RevenueOf);
  }

  /** One record adds its quantity and revenue to the sums over `byProduct`. */
  lemma AccumulateProductSums(byProduct: Assoc<ProductStats>, r: SaleRecord, month: string)
    ensures SumBy(AccumulateProduct(byProduct, r, month), StatsQty) == SumBy(byProduct, StatsQty) + r.qty
    ensures SumBy(AccumulateProduct(byProduct, r, month), StatsRevenue) == SumBy(byProduct, StatsRevenue) + r.revenue
  {
    var stats := Get(byProduct, r.product).GetOr(NoStats);
    var sub := Get(stats.byMonth, month).GetOr(NoTotals);
    var updated := ProductStats(stats.qty + r.qty, stats.revenue + r.revenue, Put(stats.byMonth, month, Add(sub, r)));
    SumByPut(byProduct, r.product, updated, StatsQty);
    SumByPut(byProduct, r.product, updated, StatsRevenue);
  }

  /** Appending a value to `xs` leaves its first appearances alone or appends the value. */
  lemma FirstAppearancesSnoc(xs: seq<string>, x: string)
    ensures FirstAppearances(xs + [x]) == if x in FirstAppearances(xs) then FirstAppearances(xs) else FirstAppearances(xs) + [x]
  {
    assert (xs + [x])[..|xs|] == xs;
  }

  lemma ProductsSnoc(records: seq<SaleRecord>)
    requires records != []
    ensures Products(records) == Products(records[..|records| - 1]) + [records[|records| - 1].product]
  {
  }

  lemma MonthsSnoc(records: seq<SaleRecord>, monthOf: MonthKeyOf)
    requires records != []
    ensures Months(records, monthOf) == Months(records[..|records| - 1], monthOf) + [monthOf(records[|records| - 1])]
  {
  }

  /** `Object.keys(byProduct)` lists every product once, in the order in which the products first occur. */
  lemma {:induction false} GroupProductOrder(records: seq<SaleRecord>, monthOf: MonthKeyOf)
    ensures Keys(Group(records, monthOf).byProduct) == FirstAppearances(Products(records))
    decreases |records|
  {
    if records != [] {
      var n := |records| - 1;
      var r := records[n];
      var g := Group(records[..n], monthOf);
      assert Group(records, monthOf).byProduct == AccumulateProduct(g.byProduct, r, monthOf(r));
      GroupProductOrder(records[..n], monthOf);
      AccumulateProductKeys(g.byProduct, r, monthOf(r));
      ProductsSnoc(records);
      FirstAppearancesSnoc(Products(records[..n]), r.product);
    }
  }

  /** `Object.keys(byMonth)` lists every month once, in the order in which the months first occur. */
  lemma {:induction false} GroupMonthOrder(records: seq<SaleRecord>, monthOf: MonthKeyOf)
    ensures Keys(Group(records, monthOf).byMonth) == FirstAppearances(Months(records, monthOf))
    decreases |records|
  {
    if records != [] {
      var n := |records| - 1;
      var r := records[n];
      var g := Group(records[..n], monthOf);
      assert Group(records, monthOf).byMonth == AccumulateMonth(g.byMonth, r, monthOf(r));
      GroupMonthOrder(records[..n], monthOf);
      AccumulateMonthKeys(g.byMonth, r, monthOf(r));
      MonthsSnoc(records, monthOf);
      FirstAppearancesSnoc(Months(records[..n], monthOf), monthOf(r));
    }
  }

  /** Both key orders together. */
  lemma GroupKeyOrder(records: seq<SaleRecord>, monthOf: MonthKeyOf)
    ensures Keys(Group(records, monthOf).byProduct) == FirstAppearances(Products(records))
    ensures Keys(Group(records, monthOf).byMonth) == FirstAppearances(Months(records, monthOf))
  {
    GroupProductOrder(records, monthOf);
    GroupMonthOrder(records, monthOf);
  }

  /** Both maps have distinct keys, and every month key is non-empty. */
  lemma GroupKeysDistinct(records: seq<SaleRecord>, monthOf: MonthKeyOf)
    ensures Distinct(Keys(Group(records, monthOf).byProduct))
    ensures Distinct(Keys(Group(records, monthOf).byMonth))
    ensures (forall r :: monthOf(r) != "") ==> forall k :: k in Keys(Group(records, monthOf).byMonth) ==> k != ""
  {
    GroupKeyOrder(records, monthOf);
  }

  /** `byMonth[month]` exists exactly for the months some record falls in, and holds that month's sums. */
  lemma {:induction false} ByMonthEntry(records: seq<SaleRecord>, monthOf: MonthKeyOf, month: string)
    ensures Get(Group(records, monthOf).byMonth, month).Some? <==> month in Months(records, monthOf)
    ensures Get(Group(records, monthOf).byMonth, month).GetOr(NoTotals) == MonthTotal(records, monthOf, month)
    decreases |records|
  {
    if records != [] {
      var n := |records| - 1;
      var r := records[n];
      var byMonth := Group(records[..n], monthOf).byMonth;
      assert Group(records, monthOf).byMonth == AccumulateMonth(byMonth, r, monthOf(r));
      ByMonthEntry(records[..n], monthOf, month);
      AccumulateMonthEntry(byMonth, r, monthOf(r), month);
      MonthsSnoc(records, monthOf);
    }
  }

  /** `byProduct[product]` exists exactly for the products some record names, and holds that product's sums. */
  lemma {:induction false} ByProductEntry(records: seq<SaleRecord>, monthOf: MonthKeyOf, product: string)
    ensures Get(Group(records, monthOf).byProduct, product).Some? <==> product in Products(records)
    ensures var stats := Get(Group(records, monthOf).byProduct, product).GetOr(NoStats);
            Totals(stats.qty, stats.revenue) == ProductTotal(records, product)
    decreases |records|
  {
    if records != [] {
      var n := |records| - 1;
      var r := records[n];
      var byProduct := Group(records[..n], monthOf).byProduct;
      assert Group(records, monthOf).byProduct == AccumulateProduct(byProduct, r, monthOf(r));
      ByProductEntry(records[..n], monthOf, product);
      AccumulateProductEntry(byProduct, r, monthOf(r), product, "");
      ProductsSnoc(records);
    }
  }

  /** A product's `byMonth[month]` holds the sums of that product's records in that month. */
  lemma {:induction false} ByProductMonthEntry(records: seq<SaleRecord>, monthOf: MonthKeyOf, product: string, month: string)
    ensures var stats := Get(Group(records, monthOf).byProduct, product).GetOr(NoStats);
            Get(stats.byMonth, month).GetOr(NoTotals) == ProductMonthTotal(records, monthOf, product, month)
    decreases |records|
  {
    if records != [] {
      var n := |records| - 1;
      ByProductMonthEntry(records[..n], monthOf, product, month);
      AccumulateProductEntry(Group(records[..n], monthOf).byProduct, records[n], monthOf(records[n]), product, month);
    }
  }

  /** One record keeps every product's month sub-totals adding up to its totals. */
  lemma AccumulateKeepsSubTotals(byProduct: Assoc<ProductStats>, r: SaleRecord, month: string, product: string)
    requires var s := Get(byProduct, product).GetOr(NoStats);
             SumBy(s.byMonth, QtyOf) == s.qty && SumBy(s.byMonth, RevenueOf) == s.revenue
    ensures var s := Get(AccumulateProduct(byProduct, r, month), product).GetOr(NoStats);
            SumBy(s.byMonth, QtyOf) == s.qty && SumBy(s.byMonth, RevenueOf) == s.revenue
  {
    if product == r.product {
      var stats := Get(byProduct, r.product).GetOr(NoStats);
      var sub := Get(stats.byMonth, month).GetOr(NoTotals);
      SumByPut(stats.byMonth, month, Add(sub, r), QtyOf);
      SumByPut(stats.byMonth, month, Add(sub, r), RevenueOf);
    }
  }

  /** Each product's month sub-totals add up to the product's totals. */
  lemma {:induction false} ProductSubTotalsAddUp(records: seq<SaleRecord>, monthOf: MonthKeyOf, product: string)
    ensures var s := Get(Group(records, monthOf).byProduct, product).GetOr(NoStats);
            SumBy(s.byMonth, QtyOf) == s.qty && SumBy(s.byMonth, RevenueOf) == s.revenue
    decreases |records|
  {
    if records != [] {
      var n := |records| - 1;
      ProductSubTotalsAddUp(records[..n], monthOf, product);
      AccumulateKeepsSubTotals(Group(records[..n], monthOf).byProduct, records[n], monthOf(records[n]), product);
    }
  }

  /** No record is lost or counted twice: the month totals and the product totals both add up to all records. */
  lemma {:induction false} GroupConservesTotals(records: seq<SaleRecord>, monthOf: MonthKeyOf)
    ensures SumBy(Group(records, monthOf).byMonth, QtyOf) == Total(records).qty
    ensures SumBy(Group(records, monthOf).byMonth, RevenueOf) == Total(records).revenue
    ensures SumBy(Group(records, monthOf).byProduct, StatsQty) == Total(records).qty
    ensures SumBy(Group(records, monthOf).byProduct, StatsRevenue) == Total(records).revenue
    decreases |records|
  {
    if records != [] {
      var n := |records| - 1;
      var r, month := records[n], monthOf(records[n]);
      var g := Group(records[..n], monthOf);
      GroupConservesTotals(records[..n], monthOf);
      AccumulateMonthSums(g.byMonth, r, month);
      AccumulateProductSums(g.byProduct, r, month);
    }
  }
}

=== FILE: month_key.dfy ===
/**
 * Normalisation of a free-form date string into the key of the month bucket
 * it belongs to (`toMonthKey` in src/lib/analyzer.ts).
 *
 * The host's calendar parser (`new Date(input)` with `getFullYear` and
 * `getMonth`) depends on locale and time zone; the model receives it as a
 * parameter, a `HostParser`, and verifies the branches around it.
 */
module MonthKeys {
  import opened Wrappers
  import opened Text

  /** The 0-based month number the host calendar reports (`getMonth()`). */
  type MonthIndex = m: int | 0 <= m < 12

  /** A date the host parser accepted: its full year and 0-based month. */
  datatype HostDate = HostDate(fullYear: int, month: MonthIndex)

  /** The host's date parser: `None` when the parsed time is NaN. */
  type HostParser = string -> Option<HostDate>

  /** The key given to an empty date. */
  const UnknownKey: string := "Unknown"

  predicate IsSeparator(c: char) {
    c == '-' || c == '/' || c == ' '
  }

  /** The two capture groups of `(\d{4})[-/ ]?(\d{1,2})`. */
  datatype YearMonthMatch = YearMonthMatch(year: string, month: string)

  predicate WellFormedMatch(m: YearMonthMatch) {
    |m.year| == 4 && AllDigits(m.year) && 1 <= |m.month| <= 2 && AllDigits(m.month)
  }

  /** `\d{1,2}` starting at `j`: greedy, so two digits whenever two are there. */
  function MonthDigitsAt(s: string, j: nat): (m: string)
    requires j < |s| && IsDigit(s[j])
    ensures 1 <= |m| <= 2 && AllDigits(m) && j + |m| <= |s| && m == s[j..j + |m|]
    ensures |m| == 2 <==> j + 1 < |s| && IsDigit(s[j + 1])
  {
    if j + 1 < |s| && IsDigit(s[j + 1]) then s[j..j + 2] else s[j..j + 1]
  }

  /** `\d{4}` starting at `i`. */
  predicate YearDigitsAt(s: string, i: nat) {
    i + 4 <= |s| && IsDigit(s[i]) && IsDigit(s[i + 1]) && IsDigit(s[i + 2]) && IsDigit(s[i + 3])
  }

  /**
   * The match of `(\d{4})[-/ ]?(\d{1,2})` that starts exactly at `i`, if any.
   * The optional separator is tried first; without it the month digits must
   * follow the year directly.
   */
  function MatchAt(s: string, i: nat): (r: Option<YearMonthMatch>)
    requires i <= |s|
    ensures r.Some? ==> i + 4 < |s| && WellFormedMatch(r.value) && r.value.year == s[i..i + 4]
  {
    if YearDigitsAt(s, i) && i + 4 < |s| then
      var j := i + 4;
      var year := s[i..j];
      assert forall k :: 0 <= k < 4 ==> year[k] == s[i + k];
      if IsSeparator(s[j]) && j + 1 < |s| && IsDigit(s[j + 1]) then
        Some(YearMonthMatch(year, MonthDigitsAt(s, j + 1)))
      else if IsDigit(s[j]) then
        Some(YearMonthMatch(year, MonthDigitsAt(s, j)))
      else None
    else None
  }

  /** Where the leftmost match at or after `from` starts, if there is one. */
  function FirstMatchFrom(s: string, from: nat): (r: Option<nat>)
    requires from <= |s|
    ensures r.None? ==> forall i :: from <= i <= |s| ==> MatchAt(s, i).None?
    ensures r.Some? ==> from <= r.value <= |s| && MatchAt(s, r.value).Some? &&
                        forall i :: from <= i < r.value ==> MatchAt(s, i).None?
    decreases |s| - from
  {
    if MatchAt(s, from).Some? then Some(from)
    else if from == |s| then None
    else FirstMatchFrom(s, from + 1)
  }

  /** `input.match(/(\d{4})[-/ ]?(\d{1,2})/)`: the leftmost match, if any. */
  function FindYearMonth(s: string): (r: Option<YearMonthMatch>)
    ensures r.Some? ==> WellFormedMatch(r.value)
  {
    match FirstMatchFrom(s, 0)
    case Some(i) => MatchAt(s, i)
    case None => None
  }

  /** The canonical key shape `YYYY-MM`. */
  predicate IsCanonicalKey(k: string) {
    |k| == 7 && AllDigits(k[..4]) && k[4] == '-' && AllDigits(k[5..])
  }

  function KeyYear(k: string): nat
    requires IsCanonicalKey(k)
  {
    DigitsValue(k[..4])
  }

  function KeyMonth(k: string): nat
    requires IsCanonicalKey(k)
  {
    DigitsValue(k[5..])
  }

  /** Joining four year digits and two month digits with '-' gives a canonical key. */
  lemma JoinCanonical(year: string, month: string)
    requires |year| == 4 && AllDigits(year) && |month| == 2 && AllDigits(month)
    ensures var k := year + "-" + month;
            IsCanonicalKey(k) && k[..4] == year && k[5..] == month
  {
    var k := year + "-" + month;
    assert k[..4] == year;
    assert k[5..] == month;
  }

  /** The parts of `year + "-" + month` read back. */
  lemma JoinParts(year: string, month: string)
    ensures var k := year + "-" + month;
            |k| == |year| + |month| + 1 && k[..|year|] == year && k[|year|] == '-' && k[|year| + 1..] == month
  {
    var k := year + "-" + month;
    assert k[..|year|] == year;
    assert k[|year| + 1..] == month;
  }

  /** The key built from a date the host parser accepted. */
  function HostKey(d: HostDate): (k: string)
    ensures k != []
    ensures var y := IntToString(d.fullYear);
            && |k| == |y| + 3 && k[..|y|] == y && k[|y|] == '-'
            && AllDigits(k[|y| + 1..]) && DigitsValue(k[|y| + 1..]) == d.month + 1
    ensures 1000 <= d.fullYear < 10000 ==>
              IsCanonicalKey(k) && KeyYear(k) == d.fullYear && KeyMonth(k) == d.month + 1
  {
    var y := IntToString(d.fullYear);
    var t := PadStart(NatToString(d.month + 1), 2, '0');
    var k := y + "-" + t;
    PaddedTwoDigits(d.month + 1);
    JoinParts(y, t);
    if 1000 <= d.fullYear < 10000 then
      FourDigitNumber(d.fullYear);
      JoinCanonical(y, t);
      k
    else k
  }

  /** The key built from a regex match: the year as captured, the month from its numeric value. */
  function RegexKey(m: YearMonthMatch): (k: string)
    requires WellFormedMatch(m)
    ensures IsCanonicalKey(k) && k[..4] == m.year && KeyMonth(k) == DigitsValue(m.month)
  {
    var v := DigitsValue(m.month);
    ShortDigitsBound(m.month);
    PaddedTwoDigits(v);
    JoinCanonical(m.year, PadStart(NatToString(v), 2, '0'));
    m.year + "-" + PadStart(NatToString(v), 2, '0')
  }

  /** `toMonthKey`: the month bucket a record's date falls into. */
  function ToMonthKey(input: string, hostParse: HostParser): (key: string)
    ensures key != ""
    ensures input == "" ==> key == UnknownKey
    ensures input != "" && hostParse(input).Some? ==> key == HostKey(hostParse(input).value)
    ensures input != "" && hostParse(input).Some? && 1000 <= hostParse(input).value.fullYear < 10000 ==>
              IsCanonicalKey(key) && KeyYear(key) == hostParse(input).value.fullYear &&
              KeyMonth(key) == hostParse(input).value.month + 1
    ensures input != "" && hostParse(input).None? && FindYearMonth(input).Some? ==>
              IsCanonicalKey(key) && key[..4] == FindYearMonth(input).value.year &&
              KeyMonth(key) == DigitsValue(FindYearMonth(input).value.month)
    ensures input != "" && hostParse(input).None? && FindYearMonth(input).None? ==> key == input
  {
    if input == "" then UnknownKey
    else match hostParse(input)
      case Some(d) => HostKey(d)
      case None =>
        match FindYearMonth(input)
        case Some(m) => RegexKey(m)
        case None => input
  }

  /**
   * In the regex branch the month part of the key depends only on the numeric
   * value of the captured digits: "5" and "05" give the same key, and two
   * different values never do.
   */
  lemma RegexKeyByMonthValue(m1: YearMonthMatch, m2: YearMonthMatch)
    requires WellFormedMatch(m1) && WellFormedMatch(m2) && m1.year == m2.year
    ensures RegexKey(m1) == RegexKey(m2) <==> DigitsValue(m1.month) == DigitsValue(m2.month)
  {
    var k1, k2 := RegexKey(m1), RegexKey(m2);
    if k1 == k2 {
      assert KeyMonth(k1) == KeyMonth(k2);
    }
  }

  /** A string that starts with four digits and then a month (after an optional separator) matches at 0. */
  lemma LeadingMatch(s: string)
    requires YearDigitsAt(s, 0) && 4 < |s|
    requires IsDigit(s[4]) || (IsSeparator(s[4]) && 5 < |s| && IsDigit(s[5]))
    ensures FirstMatchFrom(s, 0) == Some(0)
    ensures FindYearMonth(s) == MatchAt(s, 0) && MatchAt(s, 0).Some?
  {
  }

  /** Two canonical keys with the same year text and the same month text are equal. */
  lemma CanonicalKeysEqual(a: string, b: string)
    requires IsCanonicalKey(a) && IsCanonicalKey(b) && a[..4] == b[..4] && a[5..] == b[5..]
    ensures a == b
  {
    assert a == a[..4] + [a[4]] + a[5..];
    assert b == b[..4] + [b[4]] + b[5..];
  }

  /**
   * A string that the host parser rejects and whose leftmost year-month match
   * has the year and the month value of a canonical key falls into that key's bucket.
   */
  lemma RegexBucket(s: string, hostParse: HostParser, expected: string)
    requires s != "" && hostParse(s).None? && FindYearMonth(s).Some?
    requires IsCanonicalKey(expected) && FindYearMonth(s).value.year == expected[..4]
    requires DigitsValue(FindYearMonth(s).value.month) == KeyMonth(expected)
    ensures ToMonthKey(s, hostParse) == expected
  {
    var m := FindYearMonth(s).value;
    assert ToMonthKey(s, hostParse) == RegexKey(m);
    RegexKeyIsCanonical(m, expected);
  }

  /** The regex key of a match is the canonical key with the match's year and month value. */
  lemma RegexKeyIsCanonical(m: YearMonthMatch, expected: string)
    requires WellFormedMatch(m) && IsCanonicalKey(expected)
    requires m.year == expected[..4] && DigitsValue(m.month) == KeyMonth(expected)
    ensures RegexKey(m) == expected
  {
    var key := RegexKey(m);
    TwoDigitsByValue(key[5..], expected[5..]);
    CanonicalKeysEqual(key, expected);
  }

  /**
   * A string that starts with a canonical key, followed by anything (a day,
   * a time), and that the host parser rejects falls into that key's bucket;
   * with nothing following, a canonical key is its own bucket.
   */
  lemma CanonicalPrefixBucket(k: string, rest: string, hostParse: HostParser)
    requires IsCanonicalKey(k) && hostParse(k + rest).None?
    ensures FindYearMonth(k + rest) == Some(YearMonthMatch(k[..4], k[5..]))
    ensures ToMonthKey(k + rest, hostParse) == k
  {
    var s := k + rest;
    assert s[..7] == k;
    assert forall i :: 0 <= i < 7 ==> s[i] == k[i];
    assert forall i :: 0 <= i < 4 ==> k[..4][i] == k[i];
    assert forall i :: 5 <= i < 7 ==> k[5..][i - 5] == k[i];
    LeadingMatch(s);
    assert s[0..4] == k[..4];
    assert MonthDigitsAt(s, 5) == s[5..7] == k[5..];
    RegexBucket(s, hostParse, k);
  }

  /**
   * A year followed by a one-digit month, with or without one of the
   * separators '-', '/' or ' ' between them ("2024-5", "2024/5", "2024 5",
   * "20245"), that the host parser rejects falls into the zero-padded bucket
   * ("2024-05").
   */
  lemma UnpaddedMonthBucket(year: string, sep: string, d: char, hostParse: HostParser)
    requires |year| == 4 && AllDigits(year) && IsDigit(d)
    requires |sep| <= 1 && (|sep| == 1 ==> IsSeparator(sep[0]))
    requires hostParse(year + sep + [d]).None?
    ensures ToMonthKey(year + sep + [d], hostParse) == year + ['-', '0', d]
  {
    var s := year + sep + [d];
    var j := 4 + |sep|;
    assert forall i :: 0 <= i < 4 ==> s[i] == year[i];
    assert s[j] == d && |s| == j + 1;
    LeadingMatch(s);
    assert s[0..4] == year;
    assert MonthDigitsAt(s, j) == [d];
    assert [d][..0] == [];
    var key := year + ['-', '0', d];
    JoinCanonical(year, ['0', d]);
    assert key == year + "-" + ['0', d];
    assert key[..4] == year && key[5..] == ['0', d];
    DigitsValueOfTwo('0', d);
    RegexBucket(s, hostParse, key);
  }
  /** A string with no decimal digit never matches the year-month pattern. */
  lemma {:induction false} DigitFreeHasNoMatch(s: string, from: nat)
    requires from <= |s|
    requires forall i :: 0 <= i < |s| ==> !IsDigit(s[i])
    ensures FirstMatchFrom(s, from).None?
    decreases |s| - from
  {
    if from < |s| {
      DigitFreeHasNoMatch(s, from + 1);
    }
  }

  /** A non-empty string without digits that the host parser rejects is its own bucket (e.g. "banana"). */
  lemma DigitFreeIsOwnBucket(s: string, hostParse: HostParser)
    requires s != "" && hostParse(s).None?
    requires forall i :: 0 <= i < |s| ==> !IsDigit(s[i])
    ensures ToMonthKey(s, hostParse) == s
  {
    DigitFreeHasNoMatch(s, 0);
  }
}

=== FILE: ordered_map.dfy ===
/**
 * Insertion-ordered dictionaries: the model of the plain JavaScript objects
 * that `analyzeSales` uses as keyed maps. A key gains its entry at the end
 * the first time it is stored and keeps its position afterwards, so
 * `Object.keys` and `Object.entries` list keys in first-insertion order.
 * Keys are strings, as JavaScript object keys are.
 */
module OrderedMap {
  import opened Wrappers

  type Assoc<V> = seq<(string, V)>

  function Keys<V>(m: Assoc<V>): (ks: seq<string>)
    ensures |ks| == |m| && forall i :: 0 <= i < |m| ==> ks[i] == m[i].0
  {
    if m == [] then [] else [m[0].0] + Keys(m[1..])
  }

  predicate Distinct<T(==)>(s: seq<T>) {
    forall i, j :: 0 <= i < j < |s| ==> s[i] != s[j]
  }

  /** `m[k]`: the value stored under `k`, `None` for a key never stored. */
  function Get<V>(m: Assoc<V>, k: string): Option<V>
  {
    if m == [] then None
    else if m[0].0 == k then Some(m[0].1)
    else Get(m[1..], k)
  }

  /** A key has a value exactly when it is among the keys. */
  lemma {:induction false} GetSomeIffKey<V>(m: Assoc<V>, k: string)
    ensures Get(m, k).Some? <==> k in Keys(m)
  {
    if m != [] {
      assert Keys(m) == [m[0].0] + Keys(m[1..]);
      GetSomeIffKey(m[1..], k);
    }
  }

  /**
   * `m[k] = v`: replaces the value of a key already present, in place, and
   * appends a new key at the end.
   */
  function Put<V>(m: Assoc<V>, k: string, v: V): (r: Assoc<V>)
    ensures Get(r, k) == Some(v)
    ensures forall k' :: k' != k ==> Get(r, k') == Get(m, k')
  {
    if m == [] then [(k, v)]
    else if m[0].0 == k then [(k, v)] + m[1..]
    else [m[0]] + Put(m[1..], k, v)
  }

  /** Storing keeps the key order; a new key goes last. */
  lemma {:induction false} PutKeys<V>(m: Assoc<V>, k: string, v: V)
    ensures Keys(Put(m, k, v)) == if k in Keys(m) then Keys(m) else Keys(m) + [k]
  {
    if m != [] {
      assert Keys(m) == [m[0].0] + Keys(m[1..]);
      if m[0].0 != k {
        PutKeys(m[1..], k, v);
        assert Keys(Put(m, k, v)) == [m[0].0] + Keys(Put(m[1..], k, v));
      }
    }
  }

  /** Storing keeps the keys pairwise distinct. */
  lemma PutKeepsDistinct<V>(m: Assoc<V>, k: string, v: V)
    requires Distinct(Keys(m))
    ensures Distinct(Keys(Put(m, k, v)))
  {
    PutKeys(m, k, v);
    if k !in Keys(m) {
      var ks := Keys(m) + [k];
      forall i, j | 0 <= i < j < |ks| ensures ks[i] != ks[j] {
        if j == |ks| - 1 {
          assert ks[i] == Keys(m)[i];
        } else {
          assert ks[i] == Keys(m)[i] && ks[j] == Keys(m)[j];
        }
      }
    }
  }

  /** In a map with distinct keys, the entry at position i is what its key looks up. */
  lemma {:induction false} GetAt<V>(m: Assoc<V>, i: nat)
    requires Distinct(Keys(m)) && i < |m|
    ensures Get(m, m[i].0) == Some(m[i].1)
  {
    if i > 0 {
      assert Keys(m[1..]) == Keys(m)[1..];
      GetAt(m[1..], i - 1);
    }
  }

  /** Storing twice under one key is storing the second value. */
  lemma {:induction false} PutPut<V>(m: Assoc<V>, k: string, a: V, b: V)
    ensures Put(Put(m, k, a), k, b) == Put(m, k, b)
  {
    if m != [] && m[0].0 != k {
      PutPut(m[1..], k, a, b);
    }
  }

  /** The sum of `f` over the values of `m`. */
  function SumBy<V>(m: Assoc<V>, f: V -> int): int {
    if m == [] then 0 else f(m[0].1) + SumBy(m[1..], f)
  }

  /** `f` of the value stored under `k`, 0 when there is none. */
  function AmountOf<V>(m: Assoc<V>, k: string, f: V -> int): int {
    match Get(m, k)
    case Some(v) => f(v)
    case None => 0
  }

  /** Storing `v` under `k` changes the sum by `f(v)` minus what `k` held before. */
  lemma {:induction false} SumByPut<V>(m: Assoc<V>, k: string, v: V, f: V -> int)
    ensures SumBy(Put(m, k, v), f) == SumBy(m, f) - AmountOf(m, k, f) + f(v)
  {
    if m != [] && m[0].0 != k {
      SumByPut(m[1..], k, v, f);
    }
  }

  /** The sum of `f` over the values stored under the keys `ks`, in the order of `ks`. */
  function SumOverKeys<V>(ks: seq<string>, m: Assoc<V>, f: V -> int): int {
    if ks == [] then 0 else AmountOf(m, ks[0], f) + SumOverKeys(ks[1..], m, f)
  }

  lemma {:induction false} SumOverKeysAgree<V>(ks: seq<string>, m1: Assoc<V>, m2: Assoc<V>, f: V -> int)
    requires forall k :: k in ks ==> Get(m1, k) == Get(m2, k)
    ensures SumOverKeys(ks, m1, f) == SumOverKeys(ks, m2, f)
  {
    if ks != [] {
      SumOverKeysAgree(ks[1..], m1, m2, f);
    }
  }

  /** With distinct keys, summing over the keys in their own order is summing over the map. */
  lemma {:induction false} SumOverOwnKeys<V>(m: Assoc<V>, f: V -> int)
    requires Distinct(Keys(m))
    ensures SumOverKeys(Keys(m), m, f) == SumBy(m, f)
  {
    if m != [] {
      var rest := m[1..];
      assert Keys(m) == [m[0].0] + Keys(rest);
      assert Distinct(Keys(rest));
      SumOverOwnKeys(rest, f);
      assert forall k :: k in Keys(rest) ==> Get(rest, k) == Get(m, k);
      SumOverKeysAgree(Keys(rest), rest, m, f);
    }
  }
}

=== FILE: snapshot_facts.dfy ===
/**
 * Properties of the snapshot `analyzeSales` returns, stated against the
 * input records: the revenue series and the per-product totals account for
 * every record, the series lists each month once in ascending order, the
 * peak month is the first month of largest quantity, and there is a
 * trending product and a peak month exactly when there are records.
 */
module SnapshotFacts {
  import opened Wrappers
  import opened Text
  import opened MonthKeys
  import opened OrderedMap
  import opened Sorting
  import opened Analyzer
  import opened GroupingFacts
  import opened TrendingFacts

  /** The revenue of a series, summed over its points. */
  function SeriesRevenue(series: seq<RevenuePoint>): int {
    if series == [] then 0 else series[0].revenue + SeriesRevenue(series[1..])
  }

  lemma {:induction false} SeriesRevenueOverMonths(months: seq<string>, byMonth: Assoc<Totals>)
    ensures SeriesRevenue(RevenueSeries(months, byMonth)) == SumOverKeys(months, byMonth, RevenueOf)
  {
    if months != [] {
      SeriesRevenueOverMonths(months[1..], byMonth);
    }
  }

  /** Over distinct non-empty keys, the sorted month list holds each key once, in ascending order. */
  lemma SortedMonthsFacts(byMonth: Assoc<Totals>)
    requires Distinct(Keys(byMonth)) && forall k :: k in Keys(byMonth) ==> k != ""
    ensures SortedMonths(byMonth) == SortAscending(Keys(byMonth))
    ensures StrictlyAscending(SortedMonths(byMonth))
    ensures forall k :: k in SortedMonths(byMonth) <==> k in Keys(byMonth)
  {
    var ks := Keys(byMonth);
    assert forall i :: 0 <= i < |ks| ==> ks[i] != "" by {
      forall i | 0 <= i < |ks| ensures ks[i] != "" {
        assert ks[i] in ks;
      }
    }
    assert NonEmptyKeys(ks) == ks;
  }

  /** The month list of the grouped records: every month some record falls in, once each, ascending. */
  lemma SortedMonthsOfGroup(records: seq<SaleRecord>, monthOf: MonthKeyOf)
    requires forall r :: monthOf(r) != ""
    ensures var byMonth := Group(records, monthOf).byMonth;
            && SortedMonths(byMonth) == SortAscending(Keys(byMonth))
            && StrictlyAscending(SortedMonths(byMonth))
            && (forall k :: k in SortedMonths(byMonth) <==> k in Months(records, monthOf))
  {
    GroupKeysDistinct(records, monthOf);
    GroupKeyOrder(records, monthOf);
    SortedMonthsFacts(Group(records, monthOf).byMonth);
  }

  /** The revenue series adds up to the revenue of all records. */
  lemma SeriesConservesRevenue(records: seq<SaleRecord>, hostParse: HostParser)
    ensures SeriesRevenue(Analyze(records, hostParse).revenueSeries) == Total(records).revenue
  {
    var g := Group(records, MonthOf(hostParse));
    SortedMonthsOfGroup(records, MonthOf(hostParse));
    GroupKeysDistinct(records, MonthOf(hostParse));
    SeriesRevenueOverMonths(SortedMonths(g.byMonth), g.byMonth);
    SumOverSortedKeys(Keys(g.byMonth), g.byMonth, RevenueOf);
    SumOverOwnKeys(g.byMonth, RevenueOf);
    GroupConservesTotals(records, MonthOf(hostParse));
  }

  /** The months of a series, in its order. */
  function SeriesMonths(series: seq<RevenuePoint>): (months: seq<string>)
    ensures |months| == |series| && forall i :: 0 <= i < |series| ==> months[i] == series[i].month
  {
    seq(|series|, i requires 0 <= i < |series| => series[i].month)
  }

  /**
   * The revenue series has one point for each month some record falls in,
   * in ascending order of month, and each point holds the revenue of that
   * month's records.
   */
  lemma SeriesOfGroup(records: seq<SaleRecord>, monthOf: MonthKeyOf)
    requires forall r :: monthOf(r) != ""
    ensures var byMonth := Group(records, monthOf).byMonth;
            var series := RevenueSeries(SortedMonths(byMonth), byMonth);
            && StrictlyAscending(SeriesMonths(series))
            && (forall k :: k in SeriesMonths(series) <==> k in Months(records, monthOf))
            && (forall i :: 0 <= i < |series| ==>
                  series[i].revenue == MonthTotal(records, monthOf, series[i].month).revenue)
  {
    var byMonth := Group(records, monthOf).byMonth;
    var months := SortedMonths(byMonth);
    var series := RevenueSeries(months, byMonth);
    SortedMonthsOfGroup(records, monthOf);
    assert SeriesMonths(series) == months;
    forall i | 0 <= i < |series|
      ensures series[i].revenue == MonthTotal(records, monthOf, series[i].month).revenue
    {
      ByMonthEntry(records, monthOf, months[i]);
    }
  }

  /** `SeriesOfGroup` for the snapshot, with months keyed by `toMonthKey`. */
  lemma SeriesListsEveryMonth(records: seq<SaleRecord>, hostParse: HostParser)
    ensures var series := Analyze(records, hostParse).revenueSeries;
            && StrictlyAscending(SeriesMonths(series))
            && (forall k :: k in SeriesMonths(series) <==> k in Months(records, MonthOf(hostParse)))
            && (forall i :: 0 <= i < |series| ==>
                  series[i].revenue == MonthTotal(records, MonthOf(hostParse), series[i].month).revenue)
  {
    SeriesOfGroup(records, MonthOf(hostParse));
  }

  /** `TotalsByProduct` looks up as the product's own totals. */
  lemma {:induction false} TotalsByProductEntry(byProduct: Assoc<ProductStats>, product: string)
    ensures var stats := Get(byProduct, product).GetOr(NoStats);
            Get(TotalsByProduct(byProduct), product).GetOr(NoTotals) == Totals(stats.qty, stats.revenue)
  {
    if byProduct != [] {
      TotalsByProductEntry(byProduct[1..], product);
    }
  }

  lemma {:induction false} TotalsByProductSums(byProduct: Assoc<ProductStats>)
    ensures SumBy(TotalsByProduct(byProduct), QtyOf) == SumBy(byProduct, StatsQty)
    ensures SumBy(TotalsByProduct(byProduct), RevenueOf) == SumBy(byProduct, StatsRevenue)
  {
    if byProduct != [] {
      TotalsByProductSums(byProduct[1..]);
    }
  }

  /**
   * `totalsByProduct` lists every product once, in order of first
   * occurrence, with the sums of that product's records; together they add
   * up to all records.
   */
  lemma TotalsByProductFacts(records: seq<SaleRecord>, hostParse: HostParser, product: string)
    ensures var totals := Analyze(records, hostParse).totalsByProduct;
            && Keys(totals) == FirstAppearances(Products(records))
            && Get(totals, product).GetOr(NoTotals) == ProductTotal(records, product)
            && SumBy(totals, QtyOf) == Total(records).qty
            && SumBy(totals, RevenueOf) == Total(records).revenue
  {
    var g := Group(records, MonthOf(hostParse));
    GroupKeyOrder(records, MonthOf(hostParse));
    ByProductEntry(records, MonthOf(hostParse), product);
    TotalsByProductEntry(g.byProduct, product);
    TotalsByProductSums(g.byProduct);
    GroupConservesTotals(records, MonthOf(hostParse));
  }

  /** Without records there is nothing to report. */
  lemma EmptyInput(hostParse: HostParser)
    ensures Analyze([], hostParse) == Snapshot(None, None, [], [], [])
  {
    assert SortedMonths([]) == [];
  }

  /** The product map and the month map are empty exactly when there are no records. */
  lemma GroupEmptyIffNoRecords(records: seq<SaleRecord>, hostParse: HostParser)
    ensures var g := Group(records, MonthOf(hostParse));
            (g.byProduct == [] <==> records == []) && (g.byMonth == [] <==> records == [])
  {
    GroupKeyOrder(records, MonthOf(hostParse));
    if records != [] {
      assert records[0].product in Products(records);
      assert MonthOf(hostParse)(records[0]) in Months(records, MonthOf(hostParse));
    }
  }

  /** There is a trending product and a peak month exactly when there are records. */
  lemma TrendingAndPeakExist(records: seq<SaleRecord>, hostParse: HostParser)
    ensures Analyze(records, hostParse).trendingProduct.Some? <==> records != []
    ensures Analyze(records, hostParse).peakMonth.Some? <==> records != []
  {
    var monthOf := MonthOf(hostParse);
    var g := Group(records, monthOf);
    var months := SortedMonths(g.byMonth);
    assert Analyze(records, hostParse).trendingProduct == Trending(g.byProduct, months);
    assert Analyze(records, hostParse).peakMonth == Peak(months, g.byMonth);
    GroupEmptyIffNoRecords(records, hostParse);
    TrendingCases(g.byProduct, months);
    PeakIsFirstLargest(months, g.byMonth);
    SortedMonthsOfGroup(records, monthOf);
    if records != [] {
      assert monthOf(records[0]) in Months(records, monthOf);
    }
  }

  /** An entry of `byProduct` is a product of the records, holding that product's sums. */
  lemma ProductEntryAt(records: seq<SaleRecord>, monthOf: MonthKeyOf, i: nat, month: string)
    requires i < |Group(records, monthOf).byProduct|
    ensures var e := Group(records, monthOf).byProduct[i];
            && e.0 in Products(records)
            && e.1.qty == ProductTotal(records, e.0).qty
            && AmountOf(e.1.byMonth, month, QtyOf) == ProductMonthTotal(records, monthOf, e.0, month).qty
  {
    var byProduct := Group(records, monthOf).byProduct;
    var e := byProduct[i];
    GroupKeysDistinct(records, monthOf);
    GroupProductOrder(records, monthOf);
    assert Keys(byProduct)[i] == e.0;
    GetAt(byProduct, i);
    ByProductEntry(records, monthOf, e.0);
    ByProductMonthEntry(records, monthOf, e.0, month);
  }

  /** The scan's choice is a product of the records, reporting its positive quantity in the month `last`. */
  lemma ScanChoiceOfGroup(records: seq<SaleRecord>, monthOf: MonthKeyOf, last: string, prev: string)
    ensures var t := ScanTrending(Group(records, monthOf).byProduct, last, prev);
            t.Some? ==>
              && t.value.name in Products(records)
              && t.value.total > 0
              && t.value.total == ProductMonthTotal(records, monthOf, t.value.name, last).qty
  {
    var byProduct := Group(records, monthOf).byProduct;
    ScanTrendingChoice(byProduct, last, prev);
    if ScanTrending(byProduct, last, prev).Some? {
      var i :| 0 <= i < |byProduct| && IsCandidate(byProduct[i], last)
               && ScanTrending(byProduct, last, prev).value == Choice(byProduct[i], last, prev);
      ProductEntryAt(records, monthOf, i, last);
    }
  }

  /** The fallback is a product of the records, reporting growth 0 and its lifetime quantity. */
  lemma TopOfGroup(records: seq<SaleRecord>, monthOf: MonthKeyOf)
    ensures var t := TopByQty(Group(records, monthOf).byProduct);
            t.Some? ==>
              && t.value.name in Products(records)
              && t.value.growthPct == 0
              && t.value.total == ProductTotal(records, t.value.name).qty
  {
    var byProduct := Group(records, monthOf).byProduct;
    TopByQtyIsFirstLargest(byProduct);
    if byProduct != [] {
      ProductEntryAt(records, monthOf, FirstMaxIndex(byProduct, LifetimeQty), "");
    }
  }

  /**
   * Whatever the month list, the trending product of the grouped records is
   * a product of the records. Either it is the fallback, reported with growth
   * 0 and its lifetime quantity, or the scan chose it, and it reports its
   * positive quantity in the last month of the list.
   */
  lemma TrendingOfGroup(records: seq<SaleRecord>, monthOf: MonthKeyOf, months: seq<string>)
    ensures var t := Trending(Group(records, monthOf).byProduct, months);
            t.Some? ==>
              && t.value.name in Products(records)
              && ((t.value.growthPct == 0 && t.value.total == ProductTotal(records, t.value.name).qty)
                  || (|months| >= 2 && t.value.total > 0
                      && t.value.total == ProductMonthTotal(records, monthOf, t.value.name, months[|months| - 1]).qty))
  {
    var byProduct := Group(records, monthOf).byProduct;
    var t := Trending(byProduct, months);
    if HasTwoMonths(months) && ScanTrending(byProduct, months[|months| - 1], months[|months| - 2]).Some? {
      assert t == ScanTrending(byProduct, months[|months| - 1], months[|months| - 2]);
      ScanChoiceOfGroup(records, monthOf, months[|months| - 1], months[|months| - 2]);
    } else {
      assert t == TopByQty(byProduct);
      TopOfGroup(records, monthOf);
    }
  }

  /** `TrendingOfGroup` for the snapshot, with months keyed by `toMonthKey`. */
  lemma TrendingOfRecords(records: seq<SaleRecord>, hostParse: HostParser)
    ensures var monthOf := MonthOf(hostParse);
            var months := SortedMonths(Group(records, monthOf).byMonth);
            var t := Analyze(records, hostParse).trendingProduct;
            t.Some? ==>
              && t.value.name in Products(records)
              && ((t.value.growthPct == 0 && t.value.total == ProductTotal(records, t.value.name).qty)
                  || (|months| >= 2 && t.value.total > 0
                      && t.value.total == ProductMonthTotal(records, monthOf, t.value.name, months[|months| - 1]).qty))
  {
    var monthOf := MonthOf(hostParse);
    var g := Group(records, monthOf);
    assert Analyze(records, hostParse).trendingProduct == Trending(g.byProduct, SortedMonths(g.byMonth));
    TrendingOfGroup(records, monthOf, SortedMonths(g.byMonth));
  }

  /**
   * The peak month is the first month of largest quantity in the month list:
   * no month sold more, and every month before it sold less.
   */
  lemma PeakIsFirstLargest(months: seq<string>, byMonth: Assoc<Totals>)
    ensures Peak(months, byMonth).None? <==> months == []
    ensures Peak(months, byMonth).Some? ==>
              exists i :: 0 <= i < |months|
                && Peak(months, byMonth).value == PeakMonth(months[i], AmountOf(byMonth, months[i], QtyOf))
                && (forall j :: 0 <= j < |months| ==> AmountOf(byMonth, months[j], QtyOf) <= AmountOf(byMonth, months[i], QtyOf))
                && (forall j :: 0 <= j < i ==> AmountOf(byMonth, months[j], QtyOf) < AmountOf(byMonth, months[i], QtyOf))
  {
    var peaks := MonthPeaks(months, byMonth);
    if months != [] {
      StableSortHead(peaks, PeakQty);
      var i := FirstMaxIndex(peaks, PeakQty);
      assert Peak(months, byMonth).value == PeakMonth(months[i], AmountOf(byMonth, months[i], QtyOf));
    }
  }

  /**
   * Over an ascending month list, the peak month is one of the months, no
   * month has a larger quantity, and every month that sorts before it has a
   * smaller one.
   */
  lemma PeakOverAscendingMonths(months: seq<string>, byMonth: Assoc<Totals>)
    requires StrictlyAscending(months)
    ensures var peak := Peak(months, byMonth);
            peak.Some? ==>
              && peak.value.month in months
              && peak.value.totalQty == AmountOf(byMonth, peak.value.month, QtyOf)
              && (forall k :: k in months ==> AmountOf(byMonth, k, QtyOf) <= peak.value.totalQty)
              && (forall k :: k in months && StrLess(k, peak.value.month) ==> AmountOf(byMonth, k, QtyOf) < peak.value.totalQty)
  {
    if months != [] {
      var peaks := MonthPeaks(months, byMonth);
      var i := FirstMaxIndex(peaks, PeakQty);
      StableSortHead(peaks, PeakQty);
      assert Peak(months, byMonth) == Some(peaks[i]);
      forall k | k in months
        ensures AmountOf(byMonth, k, QtyOf) <= peaks[i].totalQty
        ensures StrLess(k, peaks[i].month) ==> AmountOf(byMonth, k, QtyOf) < peaks[i].totalQty
      {
        var j :| 0 <= j < |months| && months[j] == k;
        assert PeakQty(peaks[j]) <= PeakQty(peaks[i]);
        if StrLess(k, months[i]) {
          if j > i {
            StrLessAsymmetric(months[i], months[j]);
          } else if j == i {
            StrLessIrreflexive(k);
          } else {
            assert PeakQty(peaks[j]) < PeakQty(peaks[i]);
          }
        }
      }
    }
  }

  /**
   * The peak month is a month some record falls in, its quantity is the
   * quantity of that month's records, no month has a larger quantity, and
   * every month that sorts before it has a smaller one (a tie goes to the
   * earliest month key).
   */
  lemma PeakOfGroup(records: seq<SaleRecord>, monthOf: MonthKeyOf)
    requires forall r :: monthOf(r) != ""
    ensures var byMonth := Group(records, monthOf).byMonth;
            var peak := Peak(SortedMonths(byMonth), byMonth);
            peak.Some? ==>
              && peak.value.month in Months(records, monthOf)
              && peak.value.totalQty == MonthTotal(records, monthOf, peak.value.month).qty
              && (forall k :: k in Months(records, monthOf) ==> MonthTotal(records, monthOf, k).qty <= peak.value.totalQty)
              && (forall k :: k in Months(records, monthOf) && StrLess(k, peak.value.month) ==>
                    MonthTotal(records, monthOf, k).qty < peak.value.totalQty)
  {
    var byMonth := Group(records, monthOf).byMonth;
    var months := SortedMonths(byMonth);
    SortedMonthsOfGroup(records, monthOf);
    PeakOverAscendingMonths(months, byMonth);
    forall k
      ensures AmountOf(byMonth, k, QtyOf) == MonthTotal(records, monthOf, k).qty
    {
      ByMonthEntry(records, monthOf, k);
    }
  }

  /** `PeakOfGroup` for the snapshot, with months keyed by `toMonthKey`. */
  lemma PeakMonthOfRecords(records: seq<SaleRecord>, hostParse: HostParser)
    ensures var peak := Analyze(records, hostParse).peakMonth;
            var monthOf := MonthOf(hostParse);
            peak.Some? ==>
              && peak.value.month in Months(records, monthOf)
              && peak.value.totalQty == MonthTotal(records, monthOf, peak.value.month).qty
              && (forall k :: k in Months(records, monthOf) ==> MonthTotal(records, monthOf, k).qty <= peak.value.totalQty)
              && (forall k :: k in Months(records, monthOf) && StrLess(k, peak.value.month) ==>
                    MonthTotal(records, monthOf, k).qty < peak.value.totalQty)
  {
    PeakOfGroup(records, MonthOf(hostParse));
  }

  /**
   * When every record falls in the same month, the series has at most one
   * point, so the trending product is the fallback by lifetime quantity and
   * there is no revenue alert.
   */
  lemma SingleMonth(records: seq<SaleRecord>, hostParse: HostParser)
    requires forall i, j :: 0 <= i < |records| && 0 <= j < |records| ==>
               MonthOf(hostParse)(records[i]) == MonthOf(hostParse)(records[j])
    ensures |Analyze(records, hostParse).revenueSeries| <= 1
    ensures Analyze(records, hostParse).trendingProduct == TopByQty(Group(records, MonthOf(hostParse)).byProduct)
    ensures |Analyze(records, hostParse).quickAlerts| <= 2
  {
    var g := Group(records, MonthOf(hostParse));
    var months := SortedMonths(g.byMonth);
    var snapshot := Analyze(records, hostParse);
    var series := snapshot.revenueSeries;
    assert series == RevenueSeries(months, g.byMonth);
    assert snapshot.trendingProduct == Trending(g.byProduct, months);
    SeriesListsEveryMonth(records, hostParse);
    if |series| >= 2 {
      var months := SeriesMonths(series);
      assert months[0] in months && months[1] in months;
      var ms := Months(records, MonthOf(hostParse));
      var a :| 0 <= a < |ms| && ms[a] == months[0];
      var b :| 0 <= b < |ms| && ms[b] == months[1];
      assert months[0] == months[1];
      StrLessIrreflexive(months[0]);
      assert false;
    }
  }

  /** The revenue alert says "up" when revenue did not fall and "down" only when it fell. */
  lemma RevenueAlertDirection(series: seq<RevenuePoint>)
    requires |series| >= 2
    ensures series[|series| - 1].revenue >= series[|series| - 2].revenue ==> RevenueChangePct(series) >= 0
    ensures series[|series| - 1].revenue < series[|series| - 2].revenue ==> RevenueChangePct(series) <= 0
  {
    var curr, prev := series[|series| - 1].revenue, series[|series| - 2].revenue;
    var ratio := (curr - prev) as real / Max(1, prev) as real;
    assert Max(1, prev) as real > 0.0;
    if curr >= prev {
      assert ratio >= 0.0;
    } else {
      assert ratio < 0.0;
    }
  }
}

=== FILE: sorting.dfy ===
/**
 * The two library sorts `analyzeSales` relies on: `Array.prototype.sort()`
 * with its default comparator (ascending string order), applied to the month
 * keys, and a stable sort by a numeric key in descending order (a comparator
 * `(a, b) => key(b) - key(a)`), whose first element is taken.
 */
module Sorting {
  import opened Text
  import opened OrderedMap

  predicate StrictlyAscending(s: seq<string>) {
    forall i, j :: 0 <= i < j < |s| ==> StrLess(s[i], s[j])
  }

  function InsertAscending(x: string, s: seq<string>): (r: seq<string>)
    ensures multiset(r) == multiset(s) + multiset{x}
    ensures StrictlyAscending(s) && x !in s ==> StrictlyAscending(r)
  {
    if s == [] then [x]
    else if StrLess(x, s[0]) then
      AscendingCons(x, s);
      [x] + s
    else
      var r := InsertAscending(x, s[1..]);
      assert s == [s[0]] + s[1..];
      StrLessTotal(x, s[0]);
      AscendingCons(s[0], r);
      [s[0]] + r
  }

  /** Putting a string in front of an ascending sequence of strings that all follow it. */
  lemma AscendingCons(x: string, s: seq<string>)
    ensures StrictlyAscending(s) && (forall y :: y in s ==> StrLess(x, y)) ==> StrictlyAscending([x] + s)
    ensures StrictlyAscending(s) && s != [] && StrLess(x, s[0]) ==> StrictlyAscending([x] + s)
  {
    if StrictlyAscending(s) && s != [] && StrLess(x, s[0]) {
      forall j | 0 <= j < |s| ensures StrLess(x, s[j]) {
        if j > 0 {
          StrLessTransitive(x, s[0], s[j]);
        }
      }
    }
  }

  /** `keys.sort()`: the same strings, in ascending order. */
  function SortAscending(xs: seq<string>): (r: seq<string>)
    ensures multiset(r) == multiset(xs)
    ensures Distinct(xs) ==> StrictlyAscending(r)
  {
    if xs == [] then []
    else
      var n := |xs| - 1;
      var sorted := SortAscending(xs[..n]);
      assert xs == xs[..n] + [xs[n]];
      assert Distinct(xs) ==> xs[n] !in multiset(xs[..n]);
      InsertAscending(xs[n], sorted)
  }

  /** Sorting neither adds nor drops a string. */
  lemma SortAscendingMembers(xs: seq<string>)
    ensures forall k :: k in SortAscending(xs) <==> k in xs
  {
    forall k ensures k in SortAscending(xs) <==> k in xs {
      assert k in SortAscending(xs) <==> k in multiset(SortAscending(xs));
    }
  }

  /** Sorting the keys does not change the sum over them. */
  lemma {:induction false} SumOverSortedKeys<V>(ks: seq<string>, m: Assoc<V>, f: V -> int)
    ensures SumOverKeys(SortAscending(ks), m, f) == SumOverKeys(ks, m, f)
    decreases |ks|
  {
    if ks != [] {
      var n := |ks| - 1;
      var init, last := ks[..n], ks[n];
      var sorted := SortAscending(init);
      assert ks == init + [last];
      calc {
        SumOverKeys(SortAscending(ks), m, f);
        SumOverKeys(InsertAscending(last, sorted), m, f);
        { SumOverInserted(last, sorted, m, f); }
        AmountOf(m, last, f) + SumOverKeys(sorted, m, f);
        { SumOverSortedKeys(init, m, f); }
        AmountOf(m, last, f) + SumOverKeys(init, m, f);
        { SumOverKeysAppend(init, last, m, f); }
        SumOverKeys(ks, m, f);
      }
    }
  }

  lemma {:induction false} SumOverInserted<V>(x: string, s: seq<string>, m: Assoc<V>, f: V -> int)
    ensures SumOverKeys(InsertAscending(x, s), m, f) == AmountOf(m, x, f) + SumOverKeys(s, m, f)
  {
    if s != [] && !StrLess(x, s[0]) {
      SumOverInserted(x, s[1..], m, f);
    }
  }

  lemma {:induction false} SumOverKeysAppend<V>(ks: seq<string>, k: string, m: Assoc<V>, f: V -> int)
    ensures SumOverKeys(ks + [k], m, f) == SumOverKeys(ks, m, f) + AmountOf(m, k, f)
  {
    if ks != [] {
      assert (ks + [k])[1..] == ks[1..] + [k];
      SumOverKeysAppend(ks[1..], k, m, f);
    }
  }

  /**
   * Insertion of a later element into a list sorted by descending key: it goes
   * after every element whose key is at least its own, so equal keys keep
   * their original order (the sort is stable).
   */
  function InsertDescending<T>(x: T, s: seq<T>, key: T -> int): (r: seq<T>)
    ensures |r| == |s| + 1
    ensures r[0] == (if s != [] && key(x) <= key(s[0]) then s[0] else x)
  {
    if s == [] then [x]
    else if key(x) > key(s[0]) then [x] + s
    else [s[0]] + InsertDescending(x, s[1..], key)
  }

  /** Where `InsertDescending` puts `x`: after every element whose key is at least its own. */
  function InsertionPoint<T>(x: T, s: seq<T>, key: T -> int): (k: nat)
    ensures k <= |s|
    ensures forall i :: 0 <= i < k ==> key(x) <= key(s[i])
    ensures k < |s| ==> key(s[k]) < key(x)
  {
    if s == [] || key(x) > key(s[0]) then 0
    else 1 + InsertionPoint(x, s[1..], key)
  }

  /** The insertion keeps `s` in order around `x`, which lands at its insertion point. */
  lemma {:induction false} InsertDescendingPlace<T>(x: T, s: seq<T>, key: T -> int)
    ensures var k := InsertionPoint(x, s, key);
            InsertDescending(x, s, key) == s[..k] + [x] + s[k..]
    decreases |s|
  {
    if s != [] && key(x) <= key(s[0]) {
      var k := InsertionPoint(x, s[1..], key);
      InsertDescendingPlace(x, s[1..], key);
      assert s[..k + 1] == [s[0]] + s[1..][..k];
      assert s[k + 1..] == s[1..][k..];
    }
  }

  /** A stable sort by `key`, largest first. */
  function StableSortDescending<T>(xs: seq<T>, key: T -> int): (r: seq<T>)
    ensures |r| == |xs|
  {
    if xs == [] then []
    else
      var n := |xs| - 1;
      InsertDescending(xs[n], StableSortDescending(xs[..n], key), key)
  }

  /** The position of the first element with the largest key. */
  function FirstMaxIndex<T>(xs: seq<T>, key: T -> int): (i: nat)
    requires xs != []
    ensures i < |xs|
    ensures forall j :: 0 <= j < |xs| ==> key(xs[j]) <= key(xs[i])
    ensures forall j :: 0 <= j < i ==> key(xs[j]) < key(xs[i])
  {
    if |xs| == 1 then 0
    else
      var n := |xs| - 1;
      var i := FirstMaxIndex(xs[..n], key);
      assert forall j :: 0 <= j < n ==> xs[..n][j] == xs[j];
      if key(xs[n]) > key(xs[i]) then n else i
  }

  /**
   * The element a stable descending sort puts first is the first element
   * with the largest key: among ties, the earliest one wins.
   */
  lemma {:induction false} StableSortHead<T>(xs: seq<T>, key: T -> int)
    requires xs != []
    ensures StableSortDescending(xs, key)[0] == xs[FirstMaxIndex(xs, key)]
    decreases |xs|
  {
    var n := |xs| - 1;
    if n > 0 {
      StableSortHead(xs[..n], key);
      assert xs[..n][FirstMaxIndex(xs[..n], key)] == xs[FirstMaxIndex(xs[..n], key)];
    }
  }
}

=== FILE: text.dfy ===
/**
 * Text helpers used by the month-key normaliser and the alert strings:
 * decimal digits, the decimal rendering of numbers (JavaScript's `String(n)`
 * for integers), left padding (`String.prototype.padStart`) and the
 * code-unit-wise string order that `Array.prototype.sort` uses by default.
 */
module Text {

  predicate IsDigit(c: char) {
    '0' <= c <= '9'
  }

  predicate AllDigits(s: string) {
    forall i :: 0 <= i < |s| ==> IsDigit(s[i])
  }

  function DigitValue(c: char): (d: nat)
    requires IsDigit(c)
    ensures d < 10
  {
    c as int - '0' as int
  }

  function DigitChar(d: nat): (c: char)
    requires d < 10
    ensures IsDigit(c) && DigitValue(c) == d
  {
    (48 + d) as char
  }

  /** The number a string of decimal digits denotes (`Number(s)` on such a string); "" denotes 0. */
  function DigitsValue(s: string): nat
    requires AllDigits(s)
  {
    if s == [] then 0 else 10 * DigitsValue(s[..|s| - 1]) + DigitValue(s[|s| - 1])
  }

  /** Decimal rendering of a natural number without leading zeros. */
  function NatToString(n: nat): (s: string)
    ensures s != [] && AllDigits(s)
    ensures DigitsValue(s) == n
    ensures n == 0 ==> s == "0"
    ensures n > 0 ==> s[0] != '0'
    decreases n
  {
    if n < 10 then [DigitChar(n)]
    else
      var init := NatToString(n / 10);
      var s := init + [DigitChar(n % 10)];
      assert s[..|s| - 1] == init;
      s
  }

  /** Decimal rendering of an integer, with a leading '-' when it is negative. */
  function IntToString(n: int): (s: string)
    ensures s != []
    ensures n >= 0 ==> AllDigits(s) && DigitsValue(s) == n
    ensures n < 0 ==> s[0] == '-' && AllDigits(s[1..]) && DigitsValue(s[1..]) == -n
    ensures n == 0 ==> s == "0"
    ensures n > 0 ==> s[0] != '0'
    ensures n < 0 ==> |s| >= 2 && s[1] != '0'
  {
    if n < 0 then
      var s := "-" + NatToString(-n);
      assert s[1..] == NatToString(-n);
      s
    else NatToString(n)
  }

  /** `s.padStart(width, fill)`: `s` with copies of `fill` in front until it is `width` long. */
  function PadStart(s: string, width: nat, fill: char): (r: string)
    ensures |r| == if |s| >= width then |s| else width
    ensures r[|r| - |s|..] == s
    ensures forall i :: 0 <= i < |r| - |s| ==> r[i] == fill
    decreases width - |s|
  {
    if |s| >= width then s else PadStart([fill] + s, width, fill)
  }

  /** Two-digit, zero-padded rendering of a number below 100. */
  lemma TwoDigits(v: nat)
    requires v < 100
    ensures PadStart(NatToString(v), 2, '0') == [DigitChar(v / 10), DigitChar(v % 10)]
  {
    if v < 10 {
      assert NatToString(v) == [DigitChar(v)];
      PadOneDigit(DigitChar(v));
    } else {
      var s := [DigitChar(v / 10), DigitChar(v % 10)];
      assert NatToString(v) == NatToString(v / 10) + [DigitChar(v % 10)];
      assert NatToString(v / 10) == [DigitChar(v / 10)];
      assert PadStart(s, 2, '0') == s;
    }
  }

  /** `String(v).padStart(2, "0")` for v < 100 is two digits that denote v. */
  lemma PaddedTwoDigits(v: nat)
    requires v < 100
    ensures var t := PadStart(NatToString(v), 2, '0'); |t| == 2 && AllDigits(t) && DigitsValue(t) == v
  {
    TwoDigits(v);
    DigitsValueOfTwo(DigitChar(v / 10), DigitChar(v % 10));
  }

  lemma PadOneDigit(c: char)
    ensures PadStart([c], 2, '0') == ['0', c]
  {
    assert PadStart([c], 2, '0') == PadStart(['0'] + [c], 2, '0');
  }

  lemma DigitsValueOfTwo(a: char, b: char)
    requires IsDigit(a) && IsDigit(b)
    ensures DigitsValue([a, b]) == 10 * DigitValue(a) + DigitValue(b)
  {
    assert [a, b][..1] == [a];
    assert [a][..0] == [];
    assert DigitsValue([a]) == DigitValue(a);
  }

  /** Two two-digit strings that denote the same number are the same string. */
  lemma TwoDigitsByValue(t1: string, t2: string)
    requires |t1| == 2 && |t2| == 2 && AllDigits(t1) && AllDigits(t2)
    requires DigitsValue(t1) == DigitsValue(t2)
    ensures t1 == t2
  {
    assert t1 == [t1[0], t1[1]] && t2 == [t2[0], t2[1]];
    DigitsValueOfTwo(t1[0], t1[1]);
    DigitsValueOfTwo(t2[0], t2[1]);
    assert t1[0] as int - 48 == t2[0] as int - 48;
  }

  lemma ShortDigitsBound(s: string)
    requires AllDigits(s) && |s| <= 2
    ensures DigitsValue(s) < 100
  {
    if |s| == 2 {
      assert s == [s[0], s[1]];
      DigitsValueOfTwo(s[0], s[1]);
    } else if |s| == 1 {
      assert s[..0] == [];
    }
  }

  /** A number from 1000 to 9999 is written with exactly four digits. */
  lemma FourDigitNumber(n: int)
    ensures 1000 <= n < 10000 ==> |NatToString(n)| == 4
  {
    if 1000 <= n < 10000 {
      var a := n / 10;
      var b := a / 10;
      var c := b / 10;
      assert 100 <= a < 1000 && 10 <= b < 100 && 1 <= c < 10;
      assert |NatToString(c)| == 1;
      assert |NatToString(b)| == 2;
      assert |NatToString(a)| == 3;
    }
  }

  /**
   * Ordinary string order: `a` sorts before `b` when it is a proper prefix of
   * `b` or has the smaller character at the first position where they differ.
   */
  predicate StrLess(a: string, b: string)
    decreases |a|
  {
    if a == [] then b != []
    else if b == [] then false
    else if a[0] != b[0] then a[0] < b[0]
    else StrLess(a[1..], b[1..])
  }

  lemma {:induction false} StrLessIrreflexive(a: string)
    ensures !StrLess(a, a)
    decreases |a|
  {
    if a != [] {
      StrLessIrreflexive(a[1..]);
    }
  }

  lemma {:induction false} StrLessTransitive(a: string, b: string, c: string)
    requires StrLess(a, b) && StrLess(b, c)
    ensures StrLess(a, c)
    decreases |a|
  {
    if a != [] && a[0] == b[0] && b[0] == c[0] {
      StrLessTransitive(a[1..], b[1..], c[1..]);
    }
  }

  lemma {:induction false} StrLessTotal(a: string, b: string)
    ensures a == b || StrLess(a, b) || StrLess(b, a)
    decreases |a|
  {
    if a != [] && b != [] && a[0] == b[0] {
      StrLessTotal(a[1..], b[1..]);
      if a[1..] == b[1..] {
        assert a == [a[0]] + a[1..] && b == [b[0]] + b[1..];
      }
    }
  }

  lemma {:induction false} StrLessAsymmetric(a: string, b: string)
    requires StrLess(a, b)
    ensures !StrLess(b, a)
    decreases |a|
  {
    if a != [] && a[0] == b[0] {
      StrLessAsymmetric(a[1..], b[1..]);
    }
  }
}

=== FILE: trending_facts.dfy ===
/**
 * What the trending-product selection of `analyzeSales` chooses: a product
 * with sales in the latest month, whose stored `growthPct` is the largest
 * rounded growth among such products; otherwise the first product with the
 * largest lifetime quantity.
 *
 * The growth scan compares each product's raw growth with the rounded
 * percentage stored for the current choice, so it can pick a product whose
 * raw growth is smaller than an earlier one's. `ScanTrendingPicksLaterLowerGrowth`
 * exhibits this; `ScanIntended` is the scan that compares raw growth with raw
 * growth, and `ScanIntended` is proved to choose the first product of
 * largest growth.
 */
module TrendingFacts {
  import opened Wrappers
  import opened OrderedMap
  import opened Sorting
  import opened Analyzer

  /** A product the growth scan considers: it sold a positive quantity in the latest month. */
  predicate IsCandidate(e: (string, ProductStats), last: string) {
    QtyIn(e.1, last) > 0
  }

  /** The raw month-over-month growth of a product. */
  function EntryGrowth(e: (string, ProductStats), last: string, prev: string): real {
    Growth(QtyIn(e.1, last), QtyIn(e.1, prev))
  }

  /** The record the scan stores for a product it chooses. */
  function Choice(e: (string, ProductStats), last: string, prev: string): TrendingProduct {
    TrendingProduct(e.0, Round(EntryGrowth(e, last, prev)), QtyIn(e.1, last))
  }

  /** A product new in the latest month gets a growth of exactly 100. */
  lemma NewProductGrowth(e: (string, ProductStats), last: string, prev: string)
    requires QtyIn(e.1, prev) == 0
    ensures Choice(e, last, prev).growthPct == 100
  {
    assert Round(100.0) == 100;
  }

  /**
   * The scan finds nothing exactly when no product sold in the latest month;
   * otherwise its result is one of the candidates, with the rounded growth and
   * the latest month's quantity (not the lifetime quantity).
   */
  lemma {:induction false} ScanTrendingChoice(entries: Assoc<ProductStats>, last: string, prev: string)
    ensures ScanTrending(entries, last, prev).None? <==> forall i :: 0 <= i < |entries| ==> !IsCandidate(entries[i], last)
    ensures ScanTrending(entries, last, prev).Some? ==>
              exists i :: 0 <= i < |entries| && IsCandidate(entries[i], last)
                          && ScanTrending(entries, last, prev).value == Choice(entries[i], last, prev)
    decreases |entries|
  {
    if entries != [] {
      var n := |entries| - 1;
      ScanTrendingChoice(entries[..n], last, prev);
      var before := ScanTrending(entries[..n], last, prev);
      if before.Some? {
        var i :| 0 <= i < n && IsCandidate(entries[..n][i], last) && before.value == Choice(entries[..n][i], last, prev);
        assert entries[..n][i] == entries[i];
      }
      forall i | 0 <= i < n
        ensures entries[..n][i] == entries[i]
      {
      }
    }
  }

  /** `Round` is monotone. */
  lemma RoundMonotone(x: real, y: real)
    requires x <= y
    ensures Round(x) <= Round(y)
  {
    assert (Round(x) as real) < (Round(y) as real) + 1.0;
  }

  /** The stored percentage is at least the rounded growth of every candidate seen. */
  lemma {:induction false} ScanTrendingKeepsLargestRounded(entries: Assoc<ProductStats>, last: string, prev: string)
    ensures ScanTrending(entries, last, prev).Some? ==>
              forall i :: 0 <= i < |entries| && IsCandidate(entries[i], last) ==>
                Round(EntryGrowth(entries[i], last, prev)) <= ScanTrending(entries, last, prev).value.growthPct
    decreases |entries|
  {
    if entries != [] {
      var n := |entries| - 1;
      ScanTrendingKeepsLargestRounded(entries[..n], last, prev);
      ScanTrendingChoice(entries[..n], last, prev);
      var before := ScanTrending(entries[..n], last, prev);
      var g := EntryGrowth(entries[n], last, prev);
      if IsCandidate(entries[n], last) && before.Some? {
        var stored := before.value.growthPct;
        if g > stored as real {
          RoundMonotone(stored as real, g);
        } else {
          RoundMonotone(g, stored as real);
        }
      }
      forall i | 0 <= i < n
        ensures entries[..n][i] == entries[i]
      {
      }
    }
  }

  /**
   * Every candidate's raw growth is below the stored percentage plus one half:
   * the scan's result bounds all growth up to rounding, and no closer.
   */
  lemma ScanTrendingGrowthBound(entries: Assoc<ProductStats>, last: string, prev: string, i: nat)
    requires i < |entries| && IsCandidate(entries[i], last)
    ensures ScanTrending(entries, last, prev).Some?
    ensures EntryGrowth(entries[i], last, prev) < ScanTrending(entries, last, prev).value.growthPct as real + 0.5
  {
    ScanTrendingChoice(entries, last, prev);
    ScanTrendingKeepsLargestRounded(entries, last, prev);
  }

  /**
   * The scan chooses candidate `i`: every earlier candidate's rounded growth is
   * strictly below `i`'s raw growth (so `i` replaced it, or it came first),
   * and no later candidate's raw growth exceeds `i`'s rounded growth (so none
   * replaced `i`). On a tie the earlier candidate stays.
   */
  predicate PicksAt(entries: Assoc<ProductStats>, last: string, prev: string, i: nat) {
    && i < |entries| && IsCandidate(entries[i], last)
    && (forall j :: 0 <= j < i && IsCandidate(entries[j], last) ==>
          Round(EntryGrowth(entries[j], last, prev)) as real < EntryGrowth(entries[i], last, prev))
    && (forall j :: i < j < |entries| && IsCandidate(entries[j], last) ==>
          EntryGrowth(entries[j], last, prev) <= Round(EntryGrowth(entries[i], last, prev)) as real)
  }

  /** The scan's result is the candidate singled out by `PicksAt`. */
  lemma {:induction false} ScanTrendingPicks(entries: Assoc<ProductStats>, last: string, prev: string) returns (i: nat)
    requires ScanTrending(entries, last, prev).Some?
    ensures i < |entries| && PicksAt(entries, last, prev, i)
    ensures ScanTrending(entries, last, prev).value == Choice(entries[i], last, prev)
    decreases |entries|
  {
    var n := |entries| - 1;
    var front := entries[..n];
    forall j | 0 <= j < n
      ensures front[j] == entries[j]
    {
    }
    var before := ScanTrending(front, last, prev);
    assert ScanTrending(entries, last, prev) == TrendingStep(before, entries[n].0, entries[n].1, last, prev);
    var g := EntryGrowth(entries[n], last, prev);
    if !IsCandidate(entries[n], last) {
      i := ScanTrendingPicks(front, last, prev);
    } else if before.None? {
      ScanTrendingChoice(front, last, prev);
      i := n;
    } else if g > before.value.growthPct as real {
      ScanTrendingKeepsLargestRounded(front, last, prev);
      i := n;
    } else {
      i := ScanTrendingPicks(front, last, prev);
    }
  }

  /** At most one position satisfies `PicksAt`, so it pins the scan's result. */
  lemma PicksAtUnique(entries: Assoc<ProductStats>, last: string, prev: string, i: nat, k: nat)
    requires PicksAt(entries, last, prev, i) && PicksAt(entries, last, prev, k)
    ensures i == k
  {
  }

  /** Two products new in the latest month: both grow by 100, and the first one stays. */
  function TiedNewEntries(): Assoc<ProductStats> {
    [("A", ProductStats(2, 0, [("l", Totals(2, 0))])),
     ("B", ProductStats(5, 0, [("l", Totals(5, 0))]))]
  }

  /** On equal growth the scan keeps the earlier product, because line 55 compares with `>`. */
  lemma ScanTrendingKeepsFirstOnTie()
    ensures ScanTrending(TiedNewEntries(), "l", "p") == Some(TrendingProduct("A", 100, 2))
  {
    var entries := TiedNewEntries();
    assert QtyIn(entries[0].1, "l") == 2 && QtyIn(entries[0].1, "p") == 0;
    assert QtyIn(entries[1].1, "l") == 5 && QtyIn(entries[1].1, "p") == 0;
    assert Round(100.0) == 100;
    assert entries[..1][..0] == [];
    assert entries[..1] == [entries[0]];
    assert ScanTrending(entries[..1], "l", "p") == Some(TrendingProduct("A", 100, 2));
  }

  /** Two products: A grows from 3 to 4 (33.3%), then B grows from 1000 to 1332 (33.2%). */
  function LaterLowerGrowthEntries(): Assoc<ProductStats> {
    [("A", ProductStats(7, 0, [("p", Totals(3, 0)), ("l", Totals(4, 0))])),
     ("B", ProductStats(2332, 0, [("p", Totals(1000, 0)), ("l", Totals(1332, 0))]))]
  }

  /**
   * As written, the scan stores A with growthPct 33 and then takes B because
   * 33.2 > 33, although A's growth is the larger one.
   */
  lemma ScanTrendingPicksLaterLowerGrowth()
    ensures var entries := LaterLowerGrowthEntries();
            && EntryGrowth(entries[0], "l", "p") > EntryGrowth(entries[1], "l", "p")
            && ScanTrending(entries, "l", "p") == Some(TrendingProduct("B", 33, 1332))
  {
    var entries := LaterLowerGrowthEntries();
    assert QtyIn(entries[0].1, "l") == 4 && QtyIn(entries[0].1, "p") == 3;
    assert QtyIn(entries[1].1, "l") == 1332 && QtyIn(entries[1].1, "p") == 1000;
    assert entries[..1][..0] == [];
    assert entries[..1] == [entries[0]];
    assert ScanTrending(entries[..1], "l", "p") == Some(TrendingProduct("A", 33, 4));
  }

  /**
   * The intended scan: keeps the position of the current choice and compares
   * raw growth with raw growth, replacing only on a strictly larger growth.
   */
  function ScanIntended(entries: Assoc<ProductStats>, last: string, prev: string): (best: Option<nat>)
    ensures best.None? <==> forall i :: 0 <= i < |entries| ==> !IsCandidate(entries[i], last)
    ensures best.Some? ==> best.value < |entries| && IsCandidate(entries[best.value], last)
    ensures best.Some? ==>
              forall i :: 0 <= i < |entries| && IsCandidate(entries[i], last) ==>
                EntryGrowth(entries[i], last, prev) <= EntryGrowth(entries[best.value], last, prev)
    ensures best.Some? ==>
              forall i :: 0 <= i < best.value && IsCandidate(entries[i], last) ==>
                EntryGrowth(entries[i], last, prev) < EntryGrowth(entries[best.value], last, prev)
    decreases |entries|
  {
    if entries == [] then None
    else
      var n := |entries| - 1;
      var before := ScanIntended(entries[..n], last, prev);
      assert forall i :: 0 <= i < n ==> entries[..n][i] == entries[i];
      if IsCandidate(entries[n], last)
         && (before.None? || EntryGrowth(entries[n], last, prev) > EntryGrowth(entries[before.value], last, prev))
      then Some(n)
      else before
  }

  /** The trending product with the intended scan, and the same fallback. */
  function TrendingIntended(byProduct: Assoc<ProductStats>, months: seq<string>): (t: Option<TrendingProduct>)
    ensures HasTwoMonths(months) && (exists i :: 0 <= i < |byProduct| && IsCandidate(byProduct[i], months[|months| - 1])) ==>
              exists i :: 0 <= i < |byProduct| && IsCandidate(byProduct[i], months[|months| - 1])
                          && t == Some(Choice(byProduct[i], months[|months| - 1], months[|months| - 2]))
                          && forall j :: 0 <= j < |byProduct| && IsCandidate(byProduct[j], months[|months| - 1]) ==>
                               EntryGrowth(byProduct[j], months[|months| - 1], months[|months| - 2])
                               <= EntryGrowth(byProduct[i], months[|months| - 1], months[|months| - 2])
  {
    var best := if HasTwoMonths(months) then ScanIntended(byProduct, months[|months| - 1], months[|months| - 2]) else None;
    if best.Some? then Some(Choice(byProduct[best.value], months[|months| - 1], months[|months| - 2]))
    else TopByQty(byProduct)
  }

  /**
   * The fallback picks the first product with the largest lifetime quantity,
   * reports that quantity and a growth of 0, and exists whenever a product does.
   */
  lemma TopByQtyIsFirstLargest(byProduct: Assoc<ProductStats>)
    ensures TopByQty(byProduct).None? <==> byProduct == []
    ensures byProduct != [] ==>
              var i := FirstMaxIndex(byProduct, LifetimeQty);
              && TopByQty(byProduct) == Some(TrendingProduct(byProduct[i].0, 0, byProduct[i].1.qty))
              && (forall j :: 0 <= j < |byProduct| ==> byProduct[j].1.qty <= byProduct[i].1.qty)
              && (forall j :: 0 <= j < i ==> byProduct[j].1.qty < byProduct[i].1.qty)
  {
    if byProduct != [] {
      StableSortHead(byProduct, LifetimeQty);
    }
  }

  /**
   * The trending product: the scan's choice when two months exist and some
   * product sold in the latest one, the fallback otherwise.
   */
  lemma TrendingCases(byProduct: Assoc<ProductStats>, months: seq<string>)
    ensures HasTwoMonths(months) && (exists i :: 0 <= i < |byProduct| && IsCandidate(byProduct[i], months[|months| - 1])) ==>
              Trending(byProduct, months) == ScanTrending(byProduct, months[|months| - 1], months[|months| - 2])
    ensures !HasTwoMonths(months) ==> Trending(byProduct, months) == TopByQty(byProduct)
    ensures HasTwoMonths(months) && (forall i :: 0 <= i < |byProduct| ==> !IsCandidate(byProduct[i], months[|months| - 1])) ==>
              Trending(byProduct, months) == TopByQty(byProduct)
    ensures Trending(byProduct, months).None? <==> byProduct == []
  {
    if HasTwoMonths(months) {
      ScanTrendingChoice(byProduct, months[|months| - 1], months[|months| - 2]);
    }
    TopByQtyIsFirstLargest(byProduct);
  }
}

=== FILE: wrappers.dfy ===
/** Optional values: the model's stand-in for JavaScript's `null` and `undefined`. */
module Wrappers {

  datatype Option<+T> = None | Some(value: T) {

    /** The value held, or `default` when there is none (JavaScript's `??`). */
    function GetOr(default: T): T {
      match this
      case Some(v) => v
      case None => default
    }
  }
}
